=== FILE: README.md ===
# PRAYAAS equipment rental backend — a Dafny model

PRAYAAS is a college club's equipment rental system. Its backend is a set of
Convex queries and mutations over five tables: user profiles, equipment,
semesters, requests and rentals. A sixth table is an append-only audit log
of transactions.

- A student submits a **request** for some units of an item in the active
  semester.
- A club member (or an admin) **approves** the request or **rejects** it.
  Approval takes the units off the shelf and opens a **rental** due at the
  semester's end.
- A club member can also lend stock directly, without a request.
- When the equipment comes back, a club member **returns** the rental. This
  puts the units back and records a late fee.
- Every listed rental carries a read-time projection: whether it is overdue,
  by how many started days, and the fee at ₹10 per day.
- The first profile ever created becomes an approved admin. Every later
  profile waits for an admin's approval.

## How the model is built

Each mutation is a pure function `Db -> Result<Committed<T>>`. An `Err` means
the handler threw, so the whole call rolls back.

- `Db` is a record of maps keyed by a single id counter, plus the audit log
  as a sequence. The subset type requires every key to be below the counter,
  so each new id is fresh. Ascending id
  therefore means creation order.
- The caller is the profile id the auth layer resolves to. The exception is
  `createUserProfile`, where the caller is the account's id in the auth
  library's `users` table. `None` means the request carries no identity.
- Queries return ids, newest first where the handler orders `desc`.
  `getMyRentals`, `getAllRentals` and `getOverdueRentals` return the rental
  together with its projection.
- `Ledger` ties the mutations together:
  - an `Op` dispatcher runs any sequence of calls from an empty database.
    It covers every public mutation, `updateEquipmentAvailability`
    included, and a sign-up step. Sign-up stands in
    for the auth library, which adds the `users` row that `createUserProfile`
    needs (convex/schema.ts:113);
  - the structural invariants are proved for every reachable state. Stock
    conservation is proved for every state reached without
    `updateEquipmentAvailability`, and one short run shows that the
    adjustment breaks it. A concrete run of ten calls shows that the
    reachable states include an approved admin, a stocked item and an open
    rental;
  - three lemmas show the code paths that break the stock bounds.

Modules: `Base` (ids, results, index scans), `Schema` (the tables),
`Access` (the four gates), `TextOrder` (JavaScript's default string sort),
`Inventory`, `Semesters`, `Users`, `Requests`, `Rentals`, `Transactions`
and `Ledger`.

## Model

| member | source | states |
|---|---|---|
| Access.Authorize | convex/requests.ts:13-23 | The caller passes iff it has a profile the gate admits. No identity gives "Not authenticated". Any other failure gives the gate's own error. |
| Access.ClubGateIsApprovedNonStudent | convex/requests.ts:229 | The club gate admits exactly the approved members and admins. Whoever it admits also passes the approved gate, and no student passes it. |
| Access.AdminGateIgnoresApproval | convex/users.ts:86 | The admin gate checks only the role: an unapproved admin passes it and fails every other gate. |
| Base.SelectNewestFirst | convex/requests.ts:143-146 | An index scan in descending order returns exactly the selected ids below the counter, newest first, each once. |
| Requests.SubmitRequest | convex/requests.ts:6-82 | Succeeds iff the caller is an approved student, the item exists and is active with enough units, the semester is active, and the caller has no pending request for that item. Each failure returns its own error, in the handler's order. On success it adds exactly one pending request under a fresh id, leaves stock and rentals untouched, and logs `request_submitted`. |
| Requests.ApproveStep | convex/requests.ts:241-282 | The approval branch succeeds iff the item exists with enough units and the semester exists. A missing item and a short item both give "Insufficient equipment available". Otherwise a missing semester gives "Semester not found". |
| Requests.ReviewRequest | convex/requests.ts:214-310 | Succeeds iff a club member reviews a pending request that, when approving, is approvable. Reports the gate's error, a missing request, an already reviewed one, and, when approving, a short item before a missing semester. Sets status, reason, reviewer and review date. A rejection leaves stock and rentals unchanged and logs once. An approval takes exactly the requested units off the shelf, opens the linked rental due at the semester's end, and logs `equipment_rented` then `request_approved`. |
| Requests.ApprovalIgnoresInactiveEquipment | convex/requests.ts:242-245 | An approvable pending request is approved even when its item has since been deactivated. |
| Requests.ReviewedRequestsAreTerminal | convex/requests.ts:236-238 | Reviewing a request that is no longer pending fails, and for a club member the error is "Request already reviewed". |
| Requests.GetMyRequests | convex/requests.ts:85-124 | Exactly the caller's own requests, newest first, and only for an approved student. |
| Requests.GetPendingRequests | convex/requests.ts:127-168 | Exactly the pending requests, newest first, and only for club members. |
| Requests.GetAllRequests | convex/requests.ts:171-211 | Every request, newest first, and only for club members. |
| Requests.GetPendingRequestsCount | convex/requests.ts:313-335 | Throws only for a caller with no identity. Returns 0 for a caller the club gate refuses. Otherwise returns the number of pending requests. |
| Requests.PendingCountMatchesList | convex/requests.ts:328-333 | For a club member, the badge count equals the length of the pending list. |
| Rentals.DaysCeil | convex/rentals.ts:37 | `Math.ceil(ms / day)`: the least whole number of days that covers the elapsed time. |
| Rentals.Project | convex/rentals.ts:34-38 | Overdue iff the rental is open and `now` is past the due date. Overdue days are then at least 1 and the ceiling of the elapsed days. Otherwise days and fee are 0. The fee is always 10 × days. |
| Rentals.ThreeDaysLate | convex/rentals.ts:37-38 | Exactly three days past due gives 3 days and a fee of 30. |
| Rentals.OneMillisecondLateIsOneDay | convex/rentals.ts:37-38 | One millisecond past due already counts as one day and a fee of 10. |
| Rentals.GetMyRentals | convex/rentals.ts:6-55 | For an approved student: exactly their own rentals, newest first, each with its stored document and its projection. |
| Rentals.GetAllRentals | convex/rentals.ts:58-108 | For a club member: every rental, newest first, each with its projection. |
| Rentals.InsertByDays | convex/rentals.ts:162 | Inserting into a list sorted by overdue days, descending, keeps it sorted and adds exactly one element. |
| Rentals.SortByDaysDesc | convex/rentals.ts:162 | The result is sorted by overdue days, descending, and is a permutation of the input. |
| Rentals.GetOverdueRentals | convex/rentals.ts:111-164 | For a club member: exactly the open rentals past due, each once, each with its projection, sorted by overdue days, descending. |
| Rentals.OverdueListFacts | convex/rentals.ts:126-135 | Sorting the projected overdue selection keeps the documents, the projections and the ids, and the list length equals the number of overdue rentals. |
| Rentals.GetOverdueRentalsCount | convex/rentals.ts:228-256 | Throws only for a caller with no identity. Returns 0 for a caller the club gate refuses. Otherwise returns the number of overdue rentals. |
| Rentals.OverdueCountMatchesList | convex/rentals.ts:243-254 | The overdue badge count equals the length of the overdue list. |
| Rentals.StoredFee | convex/rentals.ts:204 | `args.lateFee \|\| 0`: the caller's fee when given, otherwise 0. |
| Rentals.ReturnEquipment | convex/rentals.ts:167-225 | Succeeds iff a club member returns an existing open rental. Reports "Rental not found" and "Equipment already returned". Closes the rental with the return time and the supplied fee. Puts its units back only if the item still exists, with no upper bound. Logs `equipment_returned`. |
| Rentals.ReturnedRentalsAreTerminal | convex/rentals.ts:188-190 | After a successful return, returning the same rental again fails with "Equipment already returned". |
| Rentals.ReturnIgnoresProjectedFee | convex/rentals.ts:201-205 | Returning a rental three days late without a fee records 0, although its projection shows a fee of 30. |
| Rentals.CreateDirectRental | convex/rentals.ts:259-329 | Succeeds iff a club member lends to an approved student from an active item with enough units, for an existing semester that need not be active. Reports "Invalid student" and "Insufficient equipment available". Takes the units off the shelf and opens a rental with no request link, due at the custom date or else the semester's end. Logs `equipment_rented` with the rental as target. |
| Inventory.GetAllEquipment | convex/equipment.ts:6-26 | For an approved caller: exactly the active items, oldest first, each once. |
| Inventory.GetEquipmentByCategory | convex/equipment.ts:29-50 | For an approved caller: exactly the active items of the given category, oldest first, each once. |
| Inventory.AddEquipment | convex/equipment.ts:53-98 | A club member adds an item under a fresh id. The stored record holds the given name, category and description, every unit starts available, the item is active unless told otherwise, no other item changes, and `equipment_added` is logged. |
| Inventory.ApplyPatch | convex/equipment.ts:126-137 | Supplied fields are set and others kept. A new total moves the available count by the same amount, so the number of units out on loan is unchanged. |
| Inventory.UpdateEquipment | convex/equipment.ts:101-155 | Succeeds iff a club member patches an existing item. Changes only that item and logs `equipment_updated`. |
| Inventory.UpdateEquipmentAvailability | convex/equipment.ts:184-209 | With no access check and no log entry: succeeds iff the item exists and the new count lies in [0, total]. Reports which bound was crossed. Changes only that item's available count. |
| Inventory.GetEquipmentCategories | convex/equipment.ts:158-181 | For an approved caller: the categories of active items, each once, in JavaScript's default string order. |
| Inventory.CategoriesDependOnlyOnOfferedSet | convex/equipment.ts:178-179 | Two databases offering the same categories give the same category list. |
| TextOrder.SortedDistinct | convex/equipment.ts:178-179 | The result is strictly sorted and holds exactly the input's strings. |
| TextOrder.SortedListsWithSameElementsAreEqual | convex/equipment.ts:178-179 | Two strictly sorted lists with the same elements are equal, so the deduplicated, sorted category list is unique. |
| Semesters.DeactivateOthers | convex/semesters.ts:140-151 | Every active semester except the kept one becomes inactive. Nothing else changes. |
| Semesters.GetAllSemesters | convex/semesters.ts:6-23 | For an approved caller: every semester, newest first. |
| Semesters.GetActiveSemester | convex/semesters.ts:26-46 | The active semester, or none when no semester is active. It cannot fail when at most one semester is active, and it fails with a uniqueness error when more than one is. |
| Semesters.CreateSemester | convex/semesters.ts:49-111 | Succeeds iff a club member uses a code no semester has. Adds the semester under a fresh id. When it is made active, every other semester becomes inactive. Existing codes are kept, and `semester_created` is logged. |
| Semesters.ApplySemesterPatch | convex/semesters.ts:153-160 | Supplied fields are set and the others kept. |
| Semesters.UpdateSemester | convex/semesters.ts:114-164 | Succeeds iff a club member patches an existing semester. Activating it deactivates all others; otherwise the others are unchanged. No log entry is written. |
| Semesters.SemesterMutationsKeepOneActive | convex/semesters.ts:80-90 | Neither semester mutation can leave two semesters active. |
| Semesters.UpdateSemesterCanDuplicateCode | convex/semesters.ts:153-160 | Some update turns a database with unique codes into one where two semesters share a code. |
| Semesters.CreateSemesterKeepsCodesUnique | convex/semesters.ts:70-78 | Creating a semester keeps semester codes unique. |
| Users.CreateUserProfile | convex/users.ts:25-72 | Fails without an identity or an account. The very first profile is an approved admin. Every later profile has the requested role and waits for approval. The profile copies the given student id, phone, department and year, and takes the account's email, or "" when it has none. The log entry is written in the new profile's name. |
| Users.LaterRegistrationsPassNoGate | convex/users.ts:41-46 | A profile created when profiles already exist passes none of the four gates. |
| Users.UpdateUserApproval | convex/users.ts:98-135 | Succeeds iff an admin targets an existing profile. Changes only that profile's approval flag and logs `user_approved` or `user_rejected`. |
| Users.SignUp | convex/schema.ts:113 | Account creation by the auth library adds a `users` row under a fresh id and changes nothing else. |
| Users.GetPendingUsers | convex/users.ts:75-95 | For an admin: exactly the unapproved profiles, oldest first, each once. |
| Users.GetAllUsers | convex/users.ts:138-158 | For an admin: exactly the approved profiles, oldest first, each once. |
| Users.UserListingsPartitionProfiles | convex/users.ts:90-93 | The two admin listings split the profiles with no overlap. |
| Transactions.PageSize | convex/transactions.ts:40 | `limit \|\| default`: a missing or zero limit falls back to the default. |
| Transactions.Newest | convex/transactions.ts:35-45 | At most `limit` matching log positions, newest first. Any matching entry left out is older than every one listed, and none is left out when the limit is not reached. |
| Transactions.GetTransactionHistory | convex/transactions.ts:6-60 | For a club member: at most `limit \|\| 100` entries, newest first, of the requested action type if one is given, and all of them when fewer exist. Any matching entry left out is older than every entry listed. |
| Transactions.HistoryIsNewestEntries | convex/transactions.ts:36-45 | A matching entry missing from the history means the page is full and the entry is older than everything listed. |
| Transactions.GetMyTransactionHistory | convex/transactions.ts:63-88 | For an approved caller: at most `limit \|\| 50` of their own entries, newest first, and all of them when fewer exist. |
| Transactions.MyHistoryIsNewestOwnEntries | convex/transactions.ts:80-84 | An own entry missing from the history means the page is full and the entry is older than everything listed. |
| Transactions.GetDashboardStats | convex/transactions.ts:91-139 | For a club member: the six counters. They count the active items, the open rentals, the pending requests, the overdue rentals, the approved students and the unapproved profiles. Overdue never exceeds open rentals. |
| Transactions.OverdueRentalsAreOpen | convex/transactions.ts:124-128 | Overdue rentals are a subset of the open ones, so their count is no larger. |
| Transactions.DashboardAgreesWithListings | convex/transactions.ts:107-121 | For a club member, the equipment, pending-request and overdue counters equal the lengths of the corresponding listings. For an admin, the pending-user counter also equals the length of the pending-user listing. |
| Ledger.ConservationBoundsShelf | convex/requests.ts:251-253 | When stock is conserved and no loan is negative, an item's available count never exceeds its total. |
| Ledger.SubmitKeepsValid | convex/requests.ts:42-64 | Submitting keeps every invariant, including one pending request per student and item. |
| Ledger.ReviewKeepsValid | convex/requests.ts:241-290 | Reviewing keeps every invariant: an approval moves units from the shelf onto the new rental. |
| Ledger.ReturnKeepsValid | convex/rentals.ts:193-205 | Returning keeps every invariant: the units come off the rental and back onto the shelf. |
| Ledger.DirectRentKeepsValid | convex/rentals.ts:297-311 | A direct rental keeps every invariant. |
| Ledger.AddItemKeepsValid | convex/equipment.ts:74-81 | Adding an item keeps every invariant. The new item has nothing on loan. |
| Ledger.EditItemKeepsValid | convex/equipment.ts:126-139 | Patching an item keeps every invariant, because the units on loan are unchanged. |
| Ledger.SemesterOpsKeepValid | convex/semesters.ts:80-98 | Both semester mutations keep every invariant. |
| Ledger.ProfileOpsKeepValid | convex/users.ts:48-58 | Both profile mutations keep every invariant. |
| Ledger.StepKeepsValid | convex/schema.ts:23-80 | Every call keeps the structural invariants: at most one semester is active, each student has one pending request per item, and every rental names an existing item. Every call except `updateEquipmentAvailability` also keeps stock conserved. |
| Ledger.RunKeepsValid | convex/schema.ts:23-80 | Any sequence of calls, with failed calls rolled back, keeps the structural invariants. A sequence without `updateEquipmentAvailability` keeps conservation too. |
| Ledger.ReachableStatesAreValid | convex/schema.ts:23-80 | Every database reachable from an empty one satisfies the structural invariants. Every one reached without `updateEquipmentAvailability` satisfies conservation as well. |
| Ledger.ReachableAdjustmentBreaksConservation | convex/equipment.ts:184-209 | From an empty database, a sign-up, an admin profile, an item and a semester, followed by an anonymous availability adjustment, reach a database that keeps its structure but no longer conserves stock. |
| Ledger.FailedCallLeavesNoTrace | convex/requests.ts:236-248 | A call that throws leaves no trace: removing it from any run gives the same final database. |
| Ledger.ReachableRunOverfillsShelf | convex/requests.ts:31-33 | From an empty database, sign-ups, profiles, an approval, a direct rental and an approved request for −3 units reach a valid state. That state has an approved admin, an open rental, and more units of an item available than exist. |
| Ledger.RequestCallsEvolve | convex/requests.ts:57-78 | Request calls delete nothing, append to the log, and leave reviewed requests and returned rentals as they were. |
| Ledger.RentalCallsEvolve | convex/rentals.ts:201-221 | Rental calls delete nothing, append to the log, and leave closed records as they were. |
| Ledger.ItemCallsEvolve | convex/equipment.ts:84-94 | Item calls delete nothing. Adding and editing an item append to the log, and the availability adjustment does not. |
| Ledger.SemesterCallsEvolve | convex/semesters.ts:101-107 | Semester calls delete nothing. Only creation appends to the log. |
| Ledger.ProfileCallsEvolve | convex/users.ts:61-68 | Profile calls delete nothing and append to the log. |
| Ledger.StepEvolves | convex/schema.ts:83-109 | Every call deletes nothing, never lowers the id counter, extends the log as a prefix, and leaves closed records as they were. Every call except `updateSemester`, `updateEquipmentAvailability` and sign-up appends at least one entry. |
| Ledger.RunOnlyAppends | convex/schema.ts:83-109 | Over any sequence of calls, the earlier log is a prefix of the later one. |
| Ledger.ApproveThenReturnRestoresShelf | convex/rentals.ts:193-198 | Approving a request and then returning the rental it opened leaves every item exactly as before. |
| Ledger.AvailabilityAdjustmentBreaksConservation | convex/equipment.ts:184-209 | A call with no identity can change an item's available count on a valid database and break conservation. |
| Ledger.NegativeQuantityOverfillsShelf | convex/requests.ts:31-33 | The quantity is never checked to be positive. A request for −3 units is accepted and approved, which leaves more units available than exist. |
| Ledger.ShrinkingTotalDrivesShelfNegative | convex/equipment.ts:133-137 | Lowering an item's total below the units on loan makes its available count negative. |

## Behaviour worth knowing

The model follows the code in each of these cases.

- **Late fee on return.** The return stores `args.lateFee || 0` (convex/rentals.ts:204). The fee the queries compute is not stored, so a return without a fee stores 0 (`Rentals.ReturnIgnoresProjectedFee`).
- **Count queries.** `getOverdueRentalsCount` and `getPendingRequestsCount` throw "Not authenticated" when there is no identity. They return 0 only when the caller has no profile, is not approved, or is a student (convex/rentals.ts:232-240, convex/requests.ts:317-325).
- **`updateEquipmentAvailability`.** Its source comment says "internal use" (convex/equipment.ts:183). It is nevertheless a public mutation with no access check, and it writes no log entry.
- **Stock bounds.** Nothing in the code keeps `0 ≤ available ≤ total`:
  - quantities are never checked to be positive;
  - a lowered total can drive the available count negative;
  - a return adds its units back without a ceiling.

  The model proves the exact-conservation invariant instead, and the counterexample lemmas show where the bounds fail.

## Left out

- Authentication: resolving the signed-in account to a profile is an input. Duplicate profiles for one account (where `.unique()` would throw) are not modelled.
- The `details` strings, the `metadata` of log entries, and the joined documents that queries attach (student, equipment, semester, reviewer) are not modelled. Queries return ids, or the rental with its projection.
- Times are integers in milliseconds. ISO date strings, their parsing, and the floating-point division inside `Math.ceil` are not modelled. One `now` is used per call, although `getMyRentals` and `getAllRentals` read the clock once per rental (convex/rentals.ts:35, convex/rentals.ts:87).
- `getCurrentUserProfile` and the other handlers outside the seven core files are not part of this model.
- Quantities, totals, available counts and late fees are `v.number()`, a double, in the source (convex/schema.ts:27-28, convex/schema.ts:50, convex/schema.ts:68, convex/schema.ts:72). The model uses `int`, so fractional values and floating-point rounding in the stock arithmetic are not modelled. Exact conservation depends on this.
- Sign-up is modelled only as a new row in the auth library's `users` table with an optional email. Sessions, accounts and the library's other tables are not modelled.
- `updateUserApproval`'s `reason` argument only feeds the details string, so it is not modelled.
- Transactions.GetTransactionHistory and Transactions.GetMyTransactionHistory: limits are natural numbers. Negative or fractional `limit` values are not modelled. The `by_timestamp` order is taken to be log order, which holds because every entry is stamped with the current time.
- Rentals.SortByDaysDesc: the contract states sortedness and permutation. The stability of the sort is not stated.
- Rentals.CreateDirectRental: an empty-string `customDueDate`, which `||` also replaces with the semester's end, is modelled as an absent one.
- Semesters.CreateSemester: when codes are already duplicated, `.unique()` throws its own error. The model reports "Semester code already exists" in that case too.
- Semesters.GetActiveSemester: when several semesters are active, `.unique()` throws. The model returns a distinct error for this instead of the query library's message.
- TextOrder.Below compares `char` values. JavaScript compares UTF-16 code units, and the two agree for text in the Basic Multilingual Plane.

=== FILE: access.dfy ===
/** The access gates that open every handler: resolve the caller's
    profile, then test approval and role. */
module Access {
  import opened Base
  import opened Schema

  /** The four gate shapes used across the backend. */
  datatype Gate =
    | StudentOnly    // approved profile with role student
    | ClubOnly       // approved profile whose role is not student
    | ApprovedOnly   // any approved profile
    | AdminOnly      // role admin; approval is not looked at

  predicate Admits(g: Gate, p: Profile) {
    match g
    case StudentOnly => p.isApproved && p.role == Student
    case ClubOnly => p.isApproved && p.role != Student
    case ApprovedOnly => p.isApproved
    case AdminOnly => p.role == Admin
  }

  function GateError(g: Gate): Error {
    match g
    case StudentOnly => StudentAccessRequired
    case ClubOnly => ClubMemberAccessRequired
    case ApprovedOnly => AccessDenied
    case AdminOnly => AdminAccessRequired
  }

  /** `caller` is the profile id the auth layer resolves to; None when the
      request carries no identity. An identity without a profile fails the
      gate like an unapproved one. */
  predicate Passes(s: Db, caller: Option<Id>, g: Gate) {
    caller.Some? && caller.value in s.profiles && Admits(g, s.profiles[caller.value])
  }

  function Authorize(s: Db, caller: Option<Id>, g: Gate): (r: Result<Id>)
    ensures r.Ok? <==> Passes(s, caller, g)
    ensures r.Ok? ==> Some(r.value) == caller
    ensures caller.None? ==> r == Err(NotAuthenticated)
    ensures caller.Some? && !Passes(s, caller, g) ==> r == Err(GateError(g))
  {
    match caller
    case None => Err(NotAuthenticated)
    case Some(id) =>
      if id in s.profiles && Admits(g, s.profiles[id]) then Ok(id) else Err(GateError(g))
  }

  /** The club gate admits exactly the approved members and admins, and
      every profile it admits also passes the plain approval gate. */
  lemma ClubGateIsApprovedNonStudent(p: Profile)
    ensures Admits(ClubOnly, p) <==> p.isApproved && (p.role == Member || p.role == Admin)
    ensures Admits(ClubOnly, p) ==> Admits(ApprovedOnly, p)
    ensures Admits(StudentOnly, p) ==> Admits(ApprovedOnly, p) && !Admits(ClubOnly, p)
  {
  }

  /** The admin gate does not look at approval: an unapproved admin passes it
      while failing every other gate. */
  lemma AdminGateIgnoresApproval(p: Profile)
    requires p.role == Admin && !p.isApproved
    ensures Admits(AdminOnly, p)
    ensures !Admits(ClubOnly, p) && !Admits(ApprovedOnly, p) && !Admits(StudentOnly, p)
  {
  }
}

=== FILE: base.dfy ===
/** Shared vocabulary of the rental backend: opaque ids, millisecond
    timestamps, Option/Result, the failure taxonomy of the mutations and
    queries, and a few sequence helpers used by the list queries. */
module Base {

  /** Document ids. Convex ids are opaque strings; here they are drawn from
      one counter, so ascending id order is creation order. */
  type Id = nat

  /** Every date of the schema, as milliseconds since the epoch. */
  type Time = int

  datatype Option<+T> = None | Some(value: T) {
    function GetOr(default: T): T {
      match this
      case Some(v) => v
      case None => default
    }
  }

  /** One constructor per `throw new Error(...)` of the backend. */
  datatype Error =
    | NotAuthenticated
    | StudentAccessRequired
    | ClubMemberAccessRequired
    | AccessDenied
    | AdminAccessRequired
    | UserNotFound
    | ProfileNotFound
    | EquipmentNotFound
    | EquipmentUnavailable        // "Equipment not found or inactive"
    | InsufficientEquipment
    | ExceedsTotalQuantity
    | InvalidSession              // missing or inactive semester at submission
    | DuplicatePendingRequest
    | RequestNotFound
    | AlreadyReviewed
    | SemesterNotFound
    | DuplicateSemesterCode
    | ActiveSemesterNotUnique     // `.unique()` over more than one active semester
    | RentalNotFound
    | AlreadyReturned
    | InvalidStudent

  /** Outcome of a handler: a value, or the error it throws. Usable with `:-`. */
  datatype Result<+T> = Ok(value: T) | Err(error: Error) {
    predicate IsFailure() {
      Err?
    }

    function PropagateFailure<U>(): Result<U>
      requires Err?
    {
      Err(error)
    }

    function Extract(): T
      requires Ok?
    {
      value
    }
  }

  predicate Distinct<T(==)>(s: seq<T>) {
    forall i, j :: 0 <= i < j < |s| ==> s[i] != s[j]
  }

  /** The keys of `m` below `n` whose value satisfies `keep`, oldest first:
      the result of a Convex index scan in ascending creation order. */
  function Select<T>(m: map<Id, T>, n: nat, keep: T -> bool): (r: seq<Id>)
    ensures forall i :: 0 <= i < |r| ==> r[i] in m && r[i] < n && keep(m[r[i]])
    ensures forall k :: k in m && k < n && keep(m[k]) ==> k in r
    ensures forall i, j :: 0 <= i < j < |r| ==> r[i] < r[j]
  {
    if n == 0 then []
    else Select(m, n - 1, keep) + (if n - 1 in m && keep(m[n - 1]) then [n - 1] else [])
  }

  /** `s` newest first: what `.order("desc")` yields for a creation-ordered scan. */
  function Reverse<T>(s: seq<T>): (r: seq<T>)
    ensures |r| == |s|
    ensures forall i :: 0 <= i < |s| ==> r[i] == s[|s| - 1 - i]
  {
    if |s| == 0 then [] else [s[|s| - 1]] + Reverse(s[..|s| - 1])
  }

  /** The same selection newest first: a `.order("desc")` index scan. */
  function SelectNewestFirst<T>(m: map<Id, T>, n: nat, keep: T -> bool): (r: seq<Id>)
    ensures forall i :: 0 <= i < |r| ==> r[i] in m && r[i] < n && keep(m[r[i]])
    ensures forall k :: k in m && k < n && keep(m[k]) ==> k in r
    ensures forall i, j :: 0 <= i < j < |r| ==> r[i] > r[j]
  {
    var ids := Select(m, n, keep);
    ReverseOfIncreasing(ids);
    Reverse(ids)
  }

  lemma ReverseOfIncreasing(s: seq<Id>)
    requires forall i, j :: 0 <= i < j < |s| ==> s[i] < s[j]
    ensures forall k :: k in s <==> k in Reverse(s)
    ensures forall i, j :: 0 <= i < j < |Reverse(s)| ==> Reverse(s)[i] > Reverse(s)[j]
  {
    var r := Reverse(s);
    forall k | k in s
      ensures k in r
    {
      var i :| 0 <= i < |s| && s[i] == k;
      assert r[|s| - 1 - i] == k;
    }
    forall i, j | 0 <= i < j < |r|
      ensures r[i] > r[j]
    {
      assert r[i] == s[|s| - 1 - i] && r[j] == s[|s| - 1 - j];
    }
  }

  /** The keys below `n` a selection picks, as a set. */
  function Chosen<T>(m: map<Id, T>, n: nat, keep: T -> bool): set<Id> {
    set k | k in m && k < n && keep(m[k])
  }

  /** A selection lists each selected key exactly once. */
  lemma SelectionCardinality<T>(m: map<Id, T>, n: nat, keep: T -> bool)
    ensures |SelectNewestFirst(m, n, keep)| == |Chosen(m, n, keep)|
    ensures |Select(m, n, keep)| == |Chosen(m, n, keep)|
  {
    var r := SelectNewestFirst(m, n, keep);
    StrictlyDecreasingIsDistinct(r);
    DistinctCardinality(r);
    SameElements(r, Chosen(m, n, keep));
  }

  lemma SameElements(r: seq<Id>, chosen: set<Id>)
    requires forall k :: k in r <==> k in chosen
    ensures Elements(r) == chosen
  {
  }

  lemma StrictlyDecreasingIsDistinct(s: seq<Id>)
    requires forall i, j :: 0 <= i < j < |s| ==> s[i] > s[j]
    ensures Distinct(s)
  {
  }

  function Elements<T>(s: seq<T>): set<T> {
    set x | x in s
  }

  /** A sequence without repetitions has as many elements as its set. */
  lemma {:induction false} DistinctCardinality<T>(s: seq<T>)
    requires Distinct(s)
    ensures |Elements(s)| == |s|
  {
    if |s| > 0 {
      var t := s[..|s| - 1];
      var last := s[|s| - 1];
      assert Distinct(t);
      DistinctCardinality(t);
      assert last !in t by {
        forall i | 0 <= i < |t|
          ensures t[i] != last
        {
          assert s[i] == t[i];
        }
      }
      assert Elements(s) == Elements(t) + {last};
    }
  }
}

=== FILE: inventory.dfy ===
/** The equipment handlers: the active/category listings, adding and
    patching items, the category listing, and the raw availability
    adjustment. */
module Inventory {
  import opened Base
  import opened Schema
  import opened Access
  import opened TextOrder

  /** The optional arguments of `updateEquipment`: None leaves a field as it is. */
  datatype EquipmentPatch = EquipmentPatch(
    name: Option<string>,
    category: Option<string>,
    description: Option<string>,
    totalQuantity: Option<int>,
    isActive: Option<bool>)

  predicate IsActiveItem(e: Equipment) {
    e.isActive
  }

  /** `getAllEquipment`: the active items, for any approved caller. */
  function GetAllEquipment(s: Db, caller: Option<Id>): (r: Result<seq<Id>>)
    ensures r.Ok? <==> Passes(s, caller, ApprovedOnly)
    ensures r.Err? ==> r.error == (if caller.None? then NotAuthenticated else AccessDenied)
    ensures r.Ok? ==> forall i :: 0 <= i < |r.value| ==> r.value[i] in s.equipment && s.equipment[r.value[i]].isActive
    ensures r.Ok? ==> forall k :: k in s.equipment && s.equipment[k].isActive ==> k in r.value
    ensures r.Ok? ==> forall i, j :: 0 <= i < j < |r.value| ==> r.value[i] < r.value[j]
  {
    var _ :- Authorize(s, caller, ApprovedOnly);
    Ok(Select(s.equipment, s.nextId, IsActiveItem))
  }

  /** `getEquipmentByCategory`: the active items of one category. */
  function GetEquipmentByCategory(s: Db, caller: Option<Id>, category: string): (r: Result<seq<Id>>)
    ensures r.Ok? <==> Passes(s, caller, ApprovedOnly)
    ensures r.Err? ==> r.error == (if caller.None? then NotAuthenticated else AccessDenied)
    ensures r.Ok? ==> forall i :: 0 <= i < |r.value| ==>
      var k := r.value[i];
      k in s.equipment && s.equipment[k].isActive && s.equipment[k].category == category
    ensures r.Ok? ==> forall k ::
      k in s.equipment && s.equipment[k].isActive && s.equipment[k].category == category ==> k in r.value
    ensures r.Ok? ==> forall i, j :: 0 <= i < j < |r.value| ==> r.value[i] < r.value[j]
  {
    var _ :- Authorize(s, caller, ApprovedOnly);
    Ok(Select(s.equipment, s.nextId, (e: Equipment) => e.category == category && e.isActive))
  }

  /** `addEquipment`: a new item with every unit available, active unless
      the caller says otherwise. */
  function AddEquipment(s: Db, caller: Option<Id>, name: string, category: string,
                        description: Option<string>, totalQuantity: int, isActive: Option<bool>,
                        now: Time): (r: Result<Committed<Id>>)
    ensures r.Ok? <==> Passes(s, caller, ClubOnly)
    ensures r.Err? ==> r.error == (if caller.None? then NotAuthenticated else ClubMemberAccessRequired)
    ensures r.Ok? ==>
      var s', id := r.value.state, r.value.value;
      && id == s.nextId && s'.nextId == s.nextId + 1
      && id in s'.equipment && s'.equipment.Keys == s.equipment.Keys + {id}
      && s'.equipment[id] == Equipment(name, category, description, totalQuantity, totalQuantity, isActive != Some(false))
      && (forall k :: k in s.equipment && k != id ==> s'.equipment[k] == s.equipment[k])
      && s'.log == s.log + [LogEntry(caller.value, EquipmentAdded, Some(id), now)]
      && s' == s.(equipment := s'.equipment, log := s'.log, nextId := s'.nextId)
  {
    var actor :- Authorize(s, caller, ClubOnly);
    var id := s.nextId;
    var item := Equipment(name, category, description, totalQuantity, totalQuantity, isActive.GetOr(true));
    var s1 := s.(equipment := s.equipment[id := item], nextId := id + 1);
    Ok(Committed(Record(s1, actor, EquipmentAdded, Some(id), now), id))
  }

  /** The patch semantics of `updateEquipment`: supplied fields are set; a new
      total moves the available count by the same delta. */
  function ApplyPatch(e: Equipment, p: EquipmentPatch): (e': Equipment)
    ensures e'.totalQuantity - e'.availableQuantity == e.totalQuantity - e.availableQuantity
    ensures p.totalQuantity.Some? ==> e'.totalQuantity == p.totalQuantity.value
    ensures p.totalQuantity.None? ==> e'.totalQuantity == e.totalQuantity && e'.availableQuantity == e.availableQuantity
    ensures e'.name == p.name.GetOr(e.name) && e'.category == p.category.GetOr(e.category)
    ensures e'.isActive == p.isActive.GetOr(e.isActive)
    ensures e'.description == (if p.description.Some? then p.description else e.description)
  {
    var described := e.(
      name := p.name.GetOr(e.name),
      category := p.category.GetOr(e.category),
      description := if p.description.Some? then p.description else e.description,
      isActive := p.isActive.GetOr(e.isActive));
    match p.totalQuantity
    case None => described
    case Some(total) =>
      described.(totalQuantity := total, availableQuantity := e.availableQuantity + (total - e.totalQuantity))
  }

  function UpdateEquipment(s: Db, caller: Option<Id>, id: Id, patch: EquipmentPatch, now: Time): (r: Result<Committed<Id>>)
    ensures r.Ok? <==> Passes(s, caller, ClubOnly) && id in s.equipment
    ensures !Passes(s, caller, ClubOnly) ==> r == Err(if caller.None? then NotAuthenticated else ClubMemberAccessRequired)
    ensures Passes(s, caller, ClubOnly) && id !in s.equipment ==> r == Err(EquipmentNotFound)
    ensures r.Ok? ==>
      var s' := r.value.state;
      && r.value.value == id
      && s'.equipment == s.equipment[id := ApplyPatch(s.equipment[id], patch)]
      && s'.log == s.log + [LogEntry(caller.value, EquipmentUpdated, Some(id), now)]
      && s' == s.(equipment := s'.equipment, log := s'.log)
  {
    var actor :- Authorize(s, caller, ClubOnly);
    if id !in s.equipment then Err(EquipmentNotFound)
    else
      var s1 := s.(equipment := s.equipment[id := ApplyPatch(s.equipment[id], patch)]);
      Ok(Committed(Record(s1, actor, EquipmentUpdated, Some(id), now), id))
  }

  /** `updateEquipmentAvailability`: moves the available count by `change`
      within `[0, totalQuantity]`. It has no access check and writes no
      audit entry. */
  function UpdateEquipmentAvailability(s: Db, id: Id, change: int): (r: Result<Committed<int>>)
    ensures r.Ok? <==> (id in s.equipment &&
                        0 <= s.equipment[id].availableQuantity + change <= s.equipment[id].totalQuantity)
    ensures id !in s.equipment ==> r == Err(EquipmentNotFound)
    ensures id in s.equipment && s.equipment[id].availableQuantity + change < 0 ==> r == Err(InsufficientEquipment)
    ensures (id in s.equipment && s.equipment[id].availableQuantity + change >= 0
             && s.equipment[id].availableQuantity + change > s.equipment[id].totalQuantity) ==> r == Err(ExceedsTotalQuantity)
    ensures r.Ok? ==>
      var e := s.equipment[id];
      && r.value.value == e.availableQuantity + change
      && 0 <= r.value.value <= e.totalQuantity
      && r.value.state == s.(equipment := s.equipment[id := e.(availableQuantity := r.value.value)])
  {
    if id !in s.equipment then Err(EquipmentNotFound)
    else
      var e := s.equipment[id];
      var available := e.availableQuantity + change;
      if available < 0 then Err(InsufficientEquipment)
      else if available > e.totalQuantity then Err(ExceedsTotalQuantity)
      else Ok(Committed(s.(equipment := s.equipment[id := e.(availableQuantity := available)]), available))
  }

  /** The categories of the active items, in creation order, repeats kept. */
  function ActiveCategories(s: Db, ids: seq<Id>): (cs: seq<string>)
    requires forall i :: 0 <= i < |ids| ==> ids[i] in s.equipment
    ensures |cs| == |ids|
    ensures forall i :: 0 <= i < |ids| ==> cs[i] == s.equipment[ids[i]].category
  {
    if |ids| == 0 then [] else ActiveCategories(s, ids[..|ids| - 1]) + [s.equipment[ids[|ids| - 1]].category]
  }

  /** Some active item carries category `c`. */
  predicate Offers(s: Db, c: string) {
    exists k :: k in s.equipment && s.equipment[k].isActive && s.equipment[k].category == c
  }

  /** `getEquipmentCategories`: the distinct categories of active items, ascending. */
  function GetEquipmentCategories(s: Db, caller: Option<Id>): (r: Result<seq<string>>)
    ensures r.Ok? <==> Passes(s, caller, ApprovedOnly)
    ensures r.Err? ==> r.error == (if caller.None? then NotAuthenticated else AccessDenied)
    ensures r.Ok? ==> StrictlySorted(r.value)
    ensures r.Ok? ==> forall c :: c in r.value ==> Offers(s, c)
    ensures r.Ok? ==> forall c :: Offers(s, c) ==> c in r.value
  {
    var _ :- Authorize(s, caller, ApprovedOnly);
    var ids := Select(s.equipment, s.nextId, IsActiveItem);
    var cs := ActiveCategories(s, ids);
    CategoriesAreOffered(s, ids, cs);
    Ok(SortedDistinct(cs))
  }

  lemma CategoriesAreOffered(s: Db, ids: seq<Id>, cs: seq<string>)
    requires ids == Select(s.equipment, s.nextId, IsActiveItem)
    requires cs == ActiveCategories(s, ids)
    ensures forall c :: c in cs ==> Offers(s, c)
    ensures forall c :: Offers(s, c) ==> c in cs
  {
    ListedCategoriesAreOffered(s.equipment, ids, cs);
    OfferedCategoriesAreListed(s.equipment, s.nextId, ids, cs);
  }

  lemma ListedCategoriesAreOffered(m: map<Id, Equipment>, ids: seq<Id>, cs: seq<string>)
    requires forall i :: 0 <= i < |ids| ==> ids[i] in m && m[ids[i]].isActive
    requires |cs| == |ids| && forall i :: 0 <= i < |ids| ==> cs[i] == m[ids[i]].category
    ensures forall c :: c in cs ==> exists k :: k in m && m[k].isActive && m[k].category == c
  {
    forall c | c in cs
      ensures exists k :: k in m && m[k].isActive && m[k].category == c
    {
      var i :| 0 <= i < |cs| && cs[i] == c;
      assert m[ids[i]].category == c;
    }
  }

  lemma OfferedCategoriesAreListed(m: map<Id, Equipment>, n: nat, ids: seq<Id>, cs: seq<string>)
    requires forall k :: k in m ==> k < n
    requires ids == Select(m, n, IsActiveItem)
    requires |cs| == |ids| && forall i :: 0 <= i < |ids| ==> cs[i] == m[ids[i]].category
    ensures forall c :: (exists k :: k in m && m[k].isActive && m[k].category == c) ==> c in cs
  {
    forall c, k | k in m && m[k].isActive && m[k].category == c
      ensures c in cs
    {
      assert IsActiveItem(m[k]);
      assert k in ids;
      var i :| 0 <= i < |ids| && ids[i] == k;
      assert cs[i] == c;
    }
  }

  /** Two databases whose active items offer the same categories list the
      same categories, whatever order the items were created in. */
  lemma CategoriesDependOnlyOnOfferedSet(s: Db, t: Db, caller: Option<Id>, callerT: Option<Id>)
    requires GetEquipmentCategories(s, caller).Ok? && GetEquipmentCategories(t, callerT).Ok?
    requires forall c :: Offers(s, c) <==> Offers(t, c)
    ensures GetEquipmentCategories(s, caller) == GetEquipmentCategories(t, callerT)
  {
    var a := GetEquipmentCategories(s, caller).value;
    var b := GetEquipmentCategories(t, callerT).value;
    SortedListsWithSameElementsAreEqual(a, b);
  }
}

=== FILE: ledger.dfy ===
/** Whole-database invariants: every unit of stock is either on the shelf or
    out on an open rental, at most one semester is active, no student holds
    two pending requests for one item, every rental names an existing item,
    reviewed requests and returned rentals never change again, nothing is
    ever deleted, and the audit log only grows. */
module Ledger {
  import opened Base
  import opened Schema
  import opened Access
  import Requests
  import Rentals
  import Inventory
  import Semesters
  import Users

  /** Units of item `e` that rental `k` holds: its quantity while open. */
  function Held(rentals: map<Id, Rental>, k: Id, e: Id): int {
    if k in rentals && rentals[k].equipmentId == e && !rentals[k].isReturned then rentals[k].quantity else 0
  }

  /** Units of item `e` out on the rentals with ids below `n`. */
  function OpenQty(rentals: map<Id, Rental>, e: Id, n: nat): int
    decreases n
  {
    if n == 0 then 0 else OpenQty(rentals, e, n - 1) + Held(rentals, n - 1, e)
  }

  lemma {:induction false} OpenQtyFrame(r1: map<Id, Rental>, r2: map<Id, Rental>, e: Id, n: nat)
    requires forall k: Id :: k < n ==> Held(r1, k, e) == Held(r2, k, e)
    ensures OpenQty(r1, e, n) == OpenQty(r2, e, n)
    decreases n
  {
    if n > 0 {
      OpenQtyFrame(r1, r2, e, n - 1);
    }
  }

  /** Ids at or past `n` hold nothing when every rental id is below `n`. */
  lemma {:induction false} OpenQtyGrow(r: map<Id, Rental>, e: Id, n: nat, m: nat)
    requires n <= m
    requires forall k :: k in r ==> k < n
    ensures OpenQty(r, e, m) == OpenQty(r, e, n)
    decreases m
  {
    if m > n {
      OpenQtyGrow(r, e, n, m - 1);
      assert m - 1 !in r;
    }
  }

  /** Replacing one rental changes the sum by exactly that rental's share. */
  lemma {:induction false} OpenQtyUpdate(r: map<Id, Rental>, k: Id, v: Rental, e: Id, n: nat)
    requires k < n
    ensures OpenQty(r[k := v], e, n) == OpenQty(r, e, n) - Held(r, k, e) + Held(r[k := v], k, e)
    decreases n
  {
    if n - 1 == k {
      forall j: Id | j < k
        ensures Held(r[k := v], j, e) == Held(r, j, e)
      {
      }
      OpenQtyFrame(r[k := v], r, e, k);
    } else {
      OpenQtyUpdate(r, k, v, e, n - 1);
    }
  }

  lemma {:induction false} OpenQtyOfUnlentItem(r: map<Id, Rental>, e: Id, n: nat)
    requires forall k :: k in r ==> r[k].equipmentId != e
    ensures OpenQty(r, e, n) == 0
    decreases n
  {
    if n > 0 {
      OpenQtyOfUnlentItem(r, e, n - 1);
    }
  }

  lemma {:induction false} OpenQtyNonNegative(r: map<Id, Rental>, e: Id, n: nat)
    requires forall k :: k in r ==> r[k].quantity >= 0
    ensures OpenQty(r, e, n) >= 0
    decreases n
  {
    if n > 0 {
      OpenQtyNonNegative(r, e, n - 1);
    }
  }

  /** Every unit of every item is on the shelf or on an open rental. */
  predicate Conservation(s: Db) {
    forall e :: e in s.equipment ==>
      s.equipment[e].availableQuantity + OpenQty(s.rentals, e, s.nextId) == s.equipment[e].totalQuantity
  }

  /** Every rental names an item that exists. */
  predicate RentalRefs(s: Db) {
    forall k :: k in s.rentals ==> s.rentals[k].equipmentId in s.equipment
  }

  /** The invariants every call keeps, `updateEquipmentAvailability`
      included. */
  predicate Structural(s: Db) {
    && RentalRefs(s)
    && Semesters.AtMostOneActive(s.semesters)
    && Requests.OnePendingPerPair(s.requests)
  }

  predicate Valid(s: Db) {
    Conservation(s) && Structural(s)
  }

  /** With every loan of a non-negative size, conservation bounds the shelf
      count by the total. */
  lemma ConservationBoundsShelf(s: Db, e: Id)
    requires Conservation(s) && e in s.equipment
    requires forall k :: k in s.rentals ==> s.rentals[k].quantity >= 0
    ensures s.equipment[e].availableQuantity <= s.equipment[e].totalQuantity
  {
    OpenQtyNonNegative(s.rentals, e, s.nextId);
  }

  /** An operation that leaves items and rentals alone keeps the ledger. */
  lemma SameLedger(s: Db, s': Db)
    requires RentalRefs(s)
    requires s'.equipment == s.equipment && s'.rentals == s.rentals && s.nextId <= s'.nextId
    ensures RentalRefs(s')
    ensures Conservation(s) ==> Conservation(s')
  {
    if Conservation(s) {
      forall e | e in s'.equipment
        ensures s'.equipment[e].availableQuantity + OpenQty(s'.rentals, e, s'.nextId) == s'.equipment[e].totalQuantity
      {
        OpenQtyGrow(s.rentals, e, s.nextId, s'.nextId);
      }
    }
  }

  /** Opening a rental at the next id while taking its units off the shelf
      keeps the ledger. */
  lemma LoanKeepsLedger(s: Db, s': Db, v: Rental)
    requires RentalRefs(s)
    requires v.equipmentId in s.equipment && !v.isReturned
    requires s'.nextId == s.nextId + 1 && s'.rentals == s.rentals[s.nextId := v]
    requires var item := s.equipment[v.equipmentId];
             s'.equipment == s.equipment[v.equipmentId := item.(availableQuantity := item.availableQuantity - v.quantity)]
    ensures RentalRefs(s')
    ensures Conservation(s) ==> Conservation(s')
  {
    if Conservation(s) {
      forall e | e in s'.equipment
        ensures s'.equipment[e].availableQuantity + OpenQty(s'.rentals, e, s'.nextId) == s'.equipment[e].totalQuantity
      {
        forall j: Id | j < s.nextId
          ensures Held(s'.rentals, j, e) == Held(s.rentals, j, e)
        {
        }
        OpenQtyFrame(s'.rentals, s.rentals, e, s.nextId);
        assert OpenQty(s'.rentals, e, s'.nextId) == OpenQty(s.rentals, e, s.nextId) + Held(s'.rentals, s.nextId, e);
      }
    }
  }

  /** Closing an open rental while putting its units back keeps the ledger. */
  lemma ReleaseKeepsLedger(s: Db, s': Db, k: Id)
    requires RentalRefs(s)
    requires k in s.rentals && !s.rentals[k].isReturned
    requires s'.nextId == s.nextId && s'.rentals.Keys == s.rentals.Keys
    requires s'.rentals == s.rentals[k := s'.rentals[k]] && s'.rentals[k].isReturned
    requires s'.rentals[k].equipmentId == s.rentals[k].equipmentId
    requires var t := s.rentals[k];
             var item := s.equipment[t.equipmentId];
             s'.equipment == s.equipment[t.equipmentId := item.(availableQuantity := item.availableQuantity + t.quantity)]
    ensures RentalRefs(s')
    ensures Conservation(s) ==> Conservation(s')
  {
    if Conservation(s) {
      forall e | e in s'.equipment
        ensures s'.equipment[e].availableQuantity + OpenQty(s'.rentals, e, s'.nextId) == s'.equipment[e].totalQuantity
      {
        OpenQtyUpdate(s.rentals, k, s'.rentals[k], e, s.nextId);
      }
    }
  }

  lemma SubmitKeepsValid(s: Db, caller: Option<Id>, equipmentId: Id, quantity: int, semesterId: Id, now: Time)
    requires Structural(s)
    ensures var r := Requests.SubmitRequest(s, caller, equipmentId, quantity, semesterId, now);
            r.Ok? ==> Structural(r.value.state) && (Conservation(s) ==> Conservation(r.value.state))
  {
    var r := Requests.SubmitRequest(s, caller, equipmentId, quantity, semesterId, now);
    if r.Ok? {
      var s' := r.value.state;
      SameLedger(s, s');
      assert !Requests.HasPending(s, caller.value, equipmentId);
    }
  }

  lemma ReviewKeepsValid(s: Db, caller: Option<Id>, requestId: Id, verdict: Requests.Verdict, reason: Option<string>, now: Time)
    requires Structural(s)
    ensures var r := Requests.ReviewRequest(s, caller, requestId, verdict, reason, now);
            r.Ok? ==> Structural(r.value.state) && (Conservation(s) ==> Conservation(r.value.state))
  {
    var r := Requests.ReviewRequest(s, caller, requestId, verdict, reason, now);
    if r.Ok? {
      var s', req := r.value.state, s.requests[requestId];
      if verdict == Requests.Approve {
        var v := Rental(req.studentId, req.equipmentId, req.semesterId, Some(requestId), req.quantity, now,
                        s.semesters[req.semesterId].endDate, None, None, false, caller.value);
        LoanKeepsLedger(s, s', v);
      } else {
        SameLedger(s, s');
      }
      assert s'.requests[requestId].status != Pending;
    }
  }

  lemma ReturnKeepsValid(s: Db, caller: Option<Id>, rentalId: Id, lateFee: Option<int>, now: Time)
    requires Structural(s)
    ensures var r := Rentals.ReturnEquipment(s, caller, rentalId, lateFee, now);
            r.Ok? ==> Structural(r.value.state) && (Conservation(s) ==> Conservation(r.value.state))
  {
    var r := Rentals.ReturnEquipment(s, caller, rentalId, lateFee, now);
    if r.Ok? {
      ReleaseKeepsLedger(s, r.value.state, rentalId);
    }
  }

  lemma DirectRentKeepsValid(s: Db, caller: Option<Id>, studentId: Id, equipmentId: Id, semesterId: Id,
                             quantity: int, customDueDate: Option<Time>, now: Time)
    requires Structural(s)
    ensures var r := Rentals.CreateDirectRental(s, caller, studentId, equipmentId, semesterId, quantity, customDueDate, now);
            r.Ok? ==> Structural(r.value.state) && (Conservation(s) ==> Conservation(r.value.state))
  {
    var r := Rentals.CreateDirectRental(s, caller, studentId, equipmentId, semesterId, quantity, customDueDate, now);
    if r.Ok? {
      LoanKeepsLedger(s, r.value.state, r.value.state.rentals[s.nextId]);
    }
  }

  lemma AddItemKeepsValid(s: Db, caller: Option<Id>, name: string, category: string, description: Option<string>,
                          totalQuantity: int, isActive: Option<bool>, now: Time)
    requires Structural(s)
    ensures var r := Inventory.AddEquipment(s, caller, name, category, description, totalQuantity, isActive, now);
            r.Ok? ==> Structural(r.value.state) && (Conservation(s) ==> Conservation(r.value.state))
  {
    var r := Inventory.AddEquipment(s, caller, name, category, description, totalQuantity, isActive, now);
    if r.Ok? && Conservation(s) {
      var s', id := r.value.state, r.value.value;
      forall e | e in s'.equipment
        ensures s'.equipment[e].availableQuantity + OpenQty(s'.rentals, e, s'.nextId) == s'.equipment[e].totalQuantity
      {
        if e == id {
          OpenQtyOfUnlentItem(s.rentals, id, s'.nextId);
        } else {
          OpenQtyGrow(s.rentals, e, s.nextId, s'.nextId);
        }
      }
    }
  }

  lemma EditItemKeepsValid(s: Db, caller: Option<Id>, id: Id, patch: Inventory.EquipmentPatch, now: Time)
    requires Structural(s)
    ensures var r := Inventory.UpdateEquipment(s, caller, id, patch, now);
            r.Ok? ==> Structural(r.value.state) && (Conservation(s) ==> Conservation(r.value.state))
  {
  }

  lemma SemesterOpsKeepValid(s: Db, caller: Option<Id>, code: string, name: string, startDate: Time, endDate: Time,
                             setAsActive: Option<bool>, id: Id, patch: Semesters.SemesterPatch, now: Time)
    requires Structural(s)
    ensures var r := Semesters.CreateSemester(s, caller, code, name, startDate, endDate, setAsActive, now);
            r.Ok? ==> Structural(r.value.state) && (Conservation(s) ==> Conservation(r.value.state))
    ensures var r := Semesters.UpdateSemester(s, caller, id, patch);
            r.Ok? ==> Structural(r.value.state) && (Conservation(s) ==> Conservation(r.value.state))
  {
    Semesters.SemesterMutationsKeepOneActive(s, caller, code, name, startDate, endDate, setAsActive, id, patch, now);
    var r := Semesters.CreateSemester(s, caller, code, name, startDate, endDate, setAsActive, now);
    if r.Ok? {
      SameLedger(s, r.value.state);
    }
    var u := Semesters.UpdateSemester(s, caller, id, patch);
    if u.Ok? {
      SameLedger(s, u.value.state);
    }
  }

  lemma ProfileOpsKeepValid(s: Db, caller: Option<Id>, role: Users.RequestedRole, name: string,
                            studentId: Option<string>, phone: Option<string>, department: Option<string>,
                            year: Option<string>, profileId: Id, isApproved: bool, now: Time)
    requires Structural(s)
    ensures var r := Users.CreateUserProfile(s, caller, role, name, studentId, phone, department, year, now);
            r.Ok? ==> Structural(r.value.state) && (Conservation(s) ==> Conservation(r.value.state))
    ensures var r := Users.UpdateUserApproval(s, caller, profileId, isApproved, now);
            r.Ok? ==> Structural(r.value.state) && (Conservation(s) ==> Conservation(r.value.state))
  {
    var r := Users.CreateUserProfile(s, caller, role, name, studentId, phone, department, year, now);
    if r.Ok? {
      SameLedger(s, r.value.state);
    }
    var u := Users.UpdateUserApproval(s, caller, profileId, isApproved, now);
    if u.Ok? {
      SameLedger(s, u.value.state);
    }
  }

  /** The public mutations of the backend, with their arguments, and the
      auth library's sign-up. */
  datatype Op =
    | Submit(equipmentId: Id, quantity: int, semesterId: Id)
    | Review(requestId: Id, verdict: Requests.Verdict, reason: Option<string>)
    | Return(rentalId: Id, lateFee: Option<int>)
    | DirectRent(studentId: Id, equipmentId: Id, semesterId: Id, quantity: int, customDueDate: Option<Time>)
    | AddItem(itemName: string, category: string, description: Option<string>, totalQuantity: int, isActive: Option<bool>)
    | EditItem(itemId: Id, itemPatch: Inventory.EquipmentPatch)
    | NewSemester(code: string, semesterName: string, startDate: Time, endDate: Time, setAsActive: Option<bool>)
    | EditSemester(semesterId: Id, semesterPatch: Semesters.SemesterPatch)
    | Register(role: Users.RequestedRole, profileName: string, studentNumber: Option<string>,
               phone: Option<string>, department: Option<string>, year: Option<string>)
    | SetApproval(profileId: Id, isApproved: bool)
    | Adjust(adjustedId: Id, change: int)
    | SignUp(email: Option<string>)

  /** One mutation call: who makes it, what, and when. */
  datatype Call = Call(caller: Option<Id>, op: Op, now: Time)

  function StateOf<T>(r: Result<Committed<T>>): (r': Result<Db>)
    ensures r'.Ok? <==> r.Ok?
    ensures r.Ok? ==> r'.value == r.value.state
  {
    match r
    case Ok(c) => Ok(c.state)
    case Err(e) => Err(e)
  }

  /** One committed mutation; an error rolls the whole call back. */
  function Step(s: Db, c: Call): Result<Db> {
    match c.op
    case Submit(eq, q, sem) => StateOf(Requests.SubmitRequest(s, c.caller, eq, q, sem, c.now))
    case Review(id, v, why) => StateOf(Requests.ReviewRequest(s, c.caller, id, v, why, c.now))
    case Return(id, fee) => StateOf(Rentals.ReturnEquipment(s, c.caller, id, fee, c.now))
    case DirectRent(st, eq, sem, q, due) => StateOf(Rentals.CreateDirectRental(s, c.caller, st, eq, sem, q, due, c.now))
    case AddItem(n, cat, d, t, a) => StateOf(Inventory.AddEquipment(s, c.caller, n, cat, d, t, a, c.now))
    case EditItem(id, p) => StateOf(Inventory.UpdateEquipment(s, c.caller, id, p, c.now))
    case NewSemester(code, n, b, e, a) => StateOf(Semesters.CreateSemester(s, c.caller, code, n, b, e, a, c.now))
    case EditSemester(id, p) => StateOf(Semesters.UpdateSemester(s, c.caller, id, p))
    case Register(role, n, sid, ph, dep, yr) => StateOf(Users.CreateUserProfile(s, c.caller, role, n, sid, ph, dep, yr, c.now))
    case SetApproval(id, ok) => StateOf(Users.UpdateUserApproval(s, c.caller, id, ok, c.now))
    case Adjust(id, change) => StateOf(Inventory.UpdateEquipmentAvailability(s, id, change))
    case SignUp(email) => Ok(Users.SignUp(s, email).state)
  }

  /** The database after one call: a failed call leaves it as it was. */
  function Next(s: Db, c: Call): Db {
    var r := Step(s, c);
    if r.Ok? then r.value else s
  }

  /** A sequence of calls, in order. */
  function Run(s: Db, calls: seq<Call>): Db
    decreases |calls|
  {
    if |calls| == 0 then s else Run(Next(s, calls[0]), calls[1..])
  }

  const Empty: Db := State(map[], map[], map[], map[], map[], map[], [], 0)

  /** The postcondition every call meets: structure is kept, and
      conservation is kept unless the call adjusts availability. */
  predicate KeepsValid(s: Db, c: Call) {
    Step(s, c).Ok? ==>
      && Structural(Step(s, c).value)
      && (Conservation(s) && !c.op.Adjust? ==> Conservation(Step(s, c).value))
  }

  lemma StockCallsKeepValid(s: Db, c: Call)
    requires Structural(s)
    requires c.op.Submit? || c.op.Review? || c.op.Return? || c.op.DirectRent?
    ensures KeepsValid(s, c)
  {
    match c.op
    case Submit(eq, q, sem) => SubmitKeepsValid(s, c.caller, eq, q, sem, c.now);
    case Review(id, v, why) => ReviewKeepsValid(s, c.caller, id, v, why, c.now);
    case Return(id, fee) => ReturnKeepsValid(s, c.caller, id, fee, c.now);
    case DirectRent(st, eq, sem, q, due) => DirectRentKeepsValid(s, c.caller, st, eq, sem, q, due, c.now);
  }

  lemma CatalogueCallsKeepValid(s: Db, c: Call)
    requires Structural(s)
    requires c.op.AddItem? || c.op.EditItem? || c.op.Adjust?
    ensures KeepsValid(s, c)
  {
    match c.op
    case AddItem(n, cat, d, t, a) => AddItemKeepsValid(s, c.caller, n, cat, d, t, a, c.now);
    case EditItem(id, p) => EditItemKeepsValid(s, c.caller, id, p, c.now);
    case Adjust(id, change) =>
  }

  lemma AccountCallsKeepValid(s: Db, c: Call)
    requires Structural(s)
    requires c.op.NewSemester? || c.op.EditSemester? || c.op.Register? || c.op.SetApproval? || c.op.SignUp?
    ensures KeepsValid(s, c)
  {
    match c.op
    case NewSemester(code, n, b, e, a) =>
      SemesterOpsKeepValid(s, c.caller, code, n, b, e, a, 0, Semesters.SemesterPatch(None, None, None, None, None), c.now);
    case EditSemester(id, p) => SemesterOpsKeepValid(s, c.caller, [], [], 0, 0, None, id, p, c.now);
    case Register(role, n, sid, ph, dep, yr) => ProfileOpsKeepValid(s, c.caller, role, n, sid, ph, dep, yr, 0, false, c.now);
    case SetApproval(id, ok) => ProfileOpsKeepValid(s, c.caller, Users.AsStudent, [], None, None, None, None, id, ok, c.now);
    case SignUp(email) => SameLedger(s, Users.SignUp(s, email).state);
  }

  /** Every call keeps the structural invariants, and every call but an
      availability adjustment keeps conservation. */
  lemma StepKeepsValid(s: Db, c: Call)
    requires Structural(s)
    ensures Step(s, c).Ok? ==> Structural(Step(s, c).value)
    ensures Step(s, c).Ok? && Conservation(s) && !c.op.Adjust? ==> Conservation(Step(s, c).value)
  {
    if c.op.Submit? || c.op.Review? || c.op.Return? || c.op.DirectRent? {
      StockCallsKeepValid(s, c);
    } else if c.op.AddItem? || c.op.EditItem? || c.op.Adjust? {
      CatalogueCallsKeepValid(s, c);
    } else {
      AccountCallsKeepValid(s, c);
    }
  }

  /** No call in the sequence adjusts availability directly. */
  predicate NoAdjustments(calls: seq<Call>) {
    forall c :: c in calls ==> !c.op.Adjust?
  }

  /** Any run keeps the structural invariants; a run without availability
      adjustments keeps conservation too. */
  lemma {:induction false} RunKeepsValid(s: Db, calls: seq<Call>)
    requires Structural(s)
    ensures Structural(Run(s, calls))
    ensures Conservation(s) && NoAdjustments(calls) ==> Conservation(Run(s, calls))
    decreases |calls|
  {
    if |calls| > 0 {
      StepKeepsValid(s, calls[0]);
      assert calls[0] in calls;
      assert forall c :: c in calls[1..] ==> c in calls;
      RunKeepsValid(Next(s, calls[0]), calls[1..]);
    }
  }

  /** Every database the backend can reach from an empty one satisfies the
      structural invariants, and every one reached without
      `updateEquipmentAvailability` satisfies them all. */
  lemma {:induction false} ReachableStatesAreValid(calls: seq<Call>)
    ensures Structural(Run(Empty, calls))
    ensures NoAdjustments(calls) ==> Valid(Run(Empty, calls))
  {
    RunKeepsValid(Empty, calls);
  }

  /** How a committed call relates the database after it to the one before:
      nothing is deleted, ids only grow, the log is only appended to (and
      strictly when `logged`), and reviewed requests and returned rentals are
      left exactly as they were. */
  predicate Evolves(s: Db, s': Db, logged: bool) {
    && s.profiles.Keys <= s'.profiles.Keys && s.equipment.Keys <= s'.equipment.Keys
    && s.semesters.Keys <= s'.semesters.Keys && s.requests.Keys <= s'.requests.Keys
    && s.rentals.Keys <= s'.rentals.Keys && s.nextId <= s'.nextId
    && |s.log| <= |s'.log| && s'.log[..|s.log|] == s.log
    && (logged ==> |s.log| < |s'.log|)
    && (forall k :: k in s.requests && s.requests[k].status != Pending ==> s'.requests[k] == s.requests[k])
    && (forall k :: k in s.rentals && s.rentals[k].isReturned ==> s'.rentals[k] == s.rentals[k])
  }

  lemma RequestCallsEvolve(s: Db, c: Call)
    requires c.op.Submit? || c.op.Review?
    ensures Step(s, c).Ok? ==> Evolves(s, Step(s, c).value, true)
  {
    match c.op
    case Submit(eq, q, sem) =>
      var r := Requests.SubmitRequest(s, c.caller, eq, q, sem, c.now);
    case Review(id, v, why) =>
      var r := Requests.ReviewRequest(s, c.caller, id, v, why, c.now);
  }

  lemma RentalCallsEvolve(s: Db, c: Call)
    requires c.op.Return? || c.op.DirectRent?
    ensures Step(s, c).Ok? ==> Evolves(s, Step(s, c).value, true)
  {
    match c.op
    case Return(id, fee) =>
      var r := Rentals.ReturnEquipment(s, c.caller, id, fee, c.now);
    case DirectRent(st, eq, sem, q, due) =>
      var r := Rentals.CreateDirectRental(s, c.caller, st, eq, sem, q, due, c.now);
  }

  lemma ItemCallsEvolve(s: Db, c: Call)
    requires c.op.AddItem? || c.op.EditItem? || c.op.Adjust?
    ensures Step(s, c).Ok? ==> Evolves(s, Step(s, c).value, !c.op.Adjust?)
  {
  }

  lemma SemesterCallsEvolve(s: Db, c: Call)
    requires c.op.NewSemester? || c.op.EditSemester?
    ensures Step(s, c).Ok? ==> Evolves(s, Step(s, c).value, c.op.NewSemester?)
  {
  }

  lemma ProfileCallsEvolve(s: Db, c: Call)
    requires c.op.Register? || c.op.SetApproval? || c.op.SignUp?
    ensures Step(s, c).Ok? ==> Evolves(s, Step(s, c).value, !c.op.SignUp?)
  {
  }

  /** Every call evolves the database; of the backend's mutations only
      `updateSemester` and `updateEquipmentAvailability` write no audit
      entry, and neither does signing up. */
  lemma StepEvolves(s: Db, c: Call)
    ensures Step(s, c).Ok? ==> Evolves(s, Step(s, c).value, !c.op.EditSemester? && !c.op.Adjust? && !c.op.SignUp?)
  {
    if c.op.Submit? || c.op.Review? {
      RequestCallsEvolve(s, c);
    } else if c.op.Return? || c.op.DirectRent? {
      RentalCallsEvolve(s, c);
    } else if c.op.AddItem? || c.op.EditItem? || c.op.Adjust? {
      ItemCallsEvolve(s, c);
    } else if c.op.NewSemester? || c.op.EditSemester? {
      SemesterCallsEvolve(s, c);
    } else {
      ProfileCallsEvolve(s, c);
    }
  }

  /** Over any run, the earlier log is a prefix of the later one. */
  lemma {:induction false} RunOnlyAppends(s: Db, calls: seq<Call>)
    ensures |s.log| <= |Run(s, calls).log| && Run(s, calls).log[..|s.log|] == s.log
    decreases |calls|
  {
    if |calls| > 0 {
      StepEvolves(s, calls[0]);
      RunOnlyAppends(Next(s, calls[0]), calls[1..]);
    }
  }

  /** Approving a request and then returning the rental it opened puts the
      shelf back exactly as it was. */
  lemma ApproveThenReturnRestoresShelf(s: Db, reviewer: Option<Id>, requestId: Id, reason: Option<string>, now: Time,
                                       clerk: Option<Id>, lateFee: Option<int>, later: Time)
    requires Requests.ReviewRequest(s, reviewer, requestId, Requests.Approve, reason, now).Ok?
    requires Passes(Requests.ReviewRequest(s, reviewer, requestId, Requests.Approve, reason, now).value.state, clerk, ClubOnly)
    ensures var s1 := Requests.ReviewRequest(s, reviewer, requestId, Requests.Approve, reason, now).value.state;
            var r := Rentals.ReturnEquipment(s1, clerk, s.nextId, lateFee, later);
            r.Ok? && r.value.state.equipment == s.equipment
  {
    var s1 := Requests.ReviewRequest(s, reviewer, requestId, Requests.Approve, reason, now).value.state;
    var eq := s.requests[requestId].equipmentId;
    assert s1.rentals[s.nextId].equipmentId == eq;
    var s2 := Rentals.ReturnEquipment(s1, clerk, s.nextId, lateFee, later).value.state;
    assert s2.equipment[eq] == s.equipment[eq];
  }

  /** `updateEquipmentAvailability` needs no signed-in caller and moves the
      shelf count without any rental, so it breaks conservation. */
  lemma AvailabilityAdjustmentBreaksConservation()
    ensures exists s: Db, id: Id, change: int ::
      && Valid(s)
      && Inventory.UpdateEquipmentAvailability(s, id, change).Ok?
      && !Conservation(Inventory.UpdateEquipmentAvailability(s, id, change).value.state)
  {
    var s: Db := State(map[], map[], map[0 := Equipment("tent", "camping", None, 5, 5, true)], map[], map[], map[], [], 1);
    OpenQtyOfUnlentItem(s.rentals, 0, 1);
    var r := Inventory.UpdateEquipmentAvailability(s, 0, -1);
    assert r.Ok? && r.value.state.equipment[0].availableQuantity == 4;
    assert !Conservation(r.value.state);
  }

  /** The request quantity is never checked to be positive: approving a
      request for -3 units puts three units more on the shelf than exist. */
  lemma NegativeQuantityOverfillsShelf()
    ensures exists s: Db, s1: Db, s2: Db ::
      && Valid(s)
      && Requests.SubmitRequest(s, Some(0), 2, -3, 3, 10) == Ok(Committed(s1, 4))
      && Requests.ReviewRequest(s1, Some(1), 4, Requests.Approve, None, 20) == Ok(Committed(s2, 4))
      && 2 in s2.equipment && s2.equipment[2].availableQuantity > s2.equipment[2].totalQuantity
  {
    var s := Club();
    ClubIsValid();
    var r1 := Requests.SubmitRequest(s, Some(0), 2, -3, 3, 10);
    assert Passes(s, Some(0), StudentOnly);
    assert !Requests.HasPending(s, 0, 2);
    var s1 := r1.value.state;
    assert r1 == Ok(Committed(s1, 4));
    assert s1.requests[4].quantity == -3 && s1.requests[4].equipmentId == 2 && s1.requests[4].status == Pending;
    assert Passes(s1, Some(1), ClubOnly);
    assert Requests.Approvable(s1, s1.requests[4]);
    var r2 := Requests.ReviewRequest(s1, Some(1), 4, Requests.Approve, None, 20);
    var s2 := r2.value.state;
    assert r2 == Ok(Committed(s2, 4));
    assert s2.equipment[2].availableQuantity == 8;
  }

  /** A small club: student 0, member 1, a fully stocked item 2 and the
      active semester 3. */
  function Club(): Db {
    var student := Profile(100, Student, true, None, "s", "s@x", None, None, None);
    var member := Profile(101, Member, true, None, "m", "m@x", None, None, None);
    State(map[], map[0 := student, 1 := member],
          map[2 := Equipment("rope", "climbing", None, 5, 5, true)],
          map[3 := Semester("W25", "Winter", 0, 100, true)], map[], map[], [], 4)
  }

  lemma ClubIsValid()
    ensures Valid(Club())
  {
    OpenQtyOfUnlentItem(Club().rentals, 2, 4);
  }

  /** `updateEquipment` moves the shelf count with the total, so cutting the
      total below the units out on loan drives the shelf count negative. */
  lemma ShrinkingTotalDrivesShelfNegative()
    ensures exists s: Db, patch: Inventory.EquipmentPatch ::
      && Valid(s) && 0 in s.equipment && s.equipment[0].availableQuantity >= 0
      && Inventory.UpdateEquipment(s, Some(1), 0, patch, 10).Ok?
      && Inventory.UpdateEquipment(s, Some(1), 0, patch, 10).value.state.equipment[0].availableQuantity < 0
  {
    var member := Profile(100, Member, true, None, "m", "m@x", None, None, None);
    var loan := Rental(1, 0, 3, None, 2, 0, 100, None, None, false, 1);
    var s: Db := State(map[], map[1 := member], map[0 := Equipment("kayak", "water", None, 2, 0, true)],
                       map[], map[], map[2 := loan], [], 4);
    assert OpenQty(s.rentals, 0, 4) == 2 by {
      assert Held(s.rentals, 2, 0) == 2;
      assert Held(s.rentals, 3, 0) == 0 && Held(s.rentals, 1, 0) == 0 && Held(s.rentals, 0, 0) == 0;
    }
    assert Valid(s);
    var patch := Inventory.EquipmentPatch(None, None, None, Some(1), None);
    assert Inventory.UpdateEquipment(s, Some(1), 0, patch, 10).value.state.equipment[0].availableQuantity == -1;
  }

  /** A run from an empty database: an account signs up and registers (the
      first profile, so an approved admin), adds an item of five units and an
      active semester; a second account signs up as a student and is
      approved; the admin lends one unit directly; the student asks for -3
      units and the admin approves. */
  const C0: Call := Call(None, SignUp(Some("admin@club")), 0)
  const C1: Call := Call(Some(0), Register(Users.AsMember, "Admin", None, None, None, None), 1)
  const C2: Call := Call(Some(1), AddItem("rope", "climbing", None, 5, None), 2)
  const C3: Call := Call(Some(1), NewSemester("W25", "Winter", 0, 1000, Some(true)), 3)
  const C4: Call := Call(None, SignUp(Some("student@club")), 4)
  const C5: Call := Call(Some(4), Register(Users.AsStudent, "Student", Some("S1"), None, None, None), 5)
  const C6: Call := Call(Some(1), SetApproval(5, true), 6)
  const C7: Call := Call(Some(1), DirectRent(5, 2, 3, 1, None), 7)
  const C8: Call := Call(Some(5), Submit(2, -3, 3), 8)
  const C9: Call := Call(Some(1), Review(7, Requests.Approve, None), 9)

  predicate AdminReady(s: Db) {
    1 in s.profiles && s.profiles[1].role == Admin && s.profiles[1].isApproved
  }

  predicate ItemReady(s: Db, available: int) {
    && 2 in s.equipment && s.equipment[2].isActive
    && s.equipment[2].totalQuantity == 5 && s.equipment[2].availableQuantity == available
  }

  predicate TermReady(s: Db) {
    3 in s.semesters && s.semesters[3].isActive
  }

  predicate StudentReady(s: Db, approved: bool) {
    5 in s.profiles && s.profiles[5].role == Student && s.profiles[5].isApproved == approved
  }

  lemma AdminRegisters()
    ensures var s := Next(Next(Empty, C0), C1);
            && s.nextId == 2 && AdminReady(s)
            && s.equipment == map[] && s.semesters == map[] && s.requests == map[] && s.rentals == map[]
  {
    var s0 := Next(Empty, C0);
    assert s0.nextId == 1 && 0 in s0.users && s0.profiles == map[];
  }

  lemma ClubStocksUp(s: Db)
    requires s.nextId == 2 && AdminReady(s)
    requires s.equipment == map[] && s.semesters == map[] && s.requests == map[] && s.rentals == map[]
    ensures var s' := Next(Next(s, C2), C3);
            && s'.nextId == 4 && AdminReady(s') && ItemReady(s', 5) && TermReady(s')
            && s'.requests == map[] && s'.rentals == map[]
  {
    var s2 := Next(s, C2);
    assert Passes(s, Some(1), ClubOnly);
    assert s2.nextId == 3 && ItemReady(s2, 5) && s2.semesters == map[];
    assert Passes(s2, Some(1), ClubOnly);
    assert !Semesters.CodeTaken(s2.semesters, "W25");
  }

  lemma StudentJoins(s: Db)
    requires s.nextId == 4 && AdminReady(s) && ItemReady(s, 5) && TermReady(s)
    requires s.requests == map[] && s.rentals == map[]
    ensures var s' := Next(Next(Next(s, C4), C5), C6);
            && s'.nextId == 6 && AdminReady(s') && ItemReady(s', 5) && TermReady(s') && StudentReady(s', true)
            && s'.requests == map[] && s'.rentals == map[]
  {
    var s4 := Next(s, C4);
    assert s4.nextId == 5 && 4 in s4.users && |s4.profiles| > 0;
    var s5 := Next(s4, C5);
    assert s5.nextId == 6 && StudentReady(s5, false) && AdminReady(s5);
    assert Passes(s5, Some(1), AdminOnly);
  }

  lemma LoanAndOverfill(s: Db)
    requires s.nextId == 6 && AdminReady(s) && ItemReady(s, 5) && TermReady(s) && StudentReady(s, true)
    requires s.requests == map[] && s.rentals == map[]
    ensures var s' := Next(Next(Next(s, C7), C8), C9);
            && AdminReady(s') && 6 in s'.rentals && !s'.rentals[6].isReturned
            && 2 in s'.equipment && s'.equipment[2].availableQuantity == 7 && s'.equipment[2].totalQuantity == 5
  {
    assert Passes(s, Some(1), ClubOnly) && Rentals.ValidStudent(s, 5);
    var s7 := Next(s, C7);
    assert s7.nextId == 7 && ItemReady(s7, 4) && TermReady(s7) && StudentReady(s7, true) && AdminReady(s7);
    assert 6 in s7.rentals && !s7.rentals[6].isReturned && s7.requests == map[];
    assert Passes(s7, Some(5), StudentOnly) && !Requests.HasPending(s7, 5, 2);
    var s8 := Next(s7, C8);
    assert s8.nextId == 8 && ItemReady(s8, 4) && AdminReady(s8) && s8.rentals == s7.rentals;
    assert 7 in s8.requests && s8.requests[7].status == Pending && s8.requests[7].quantity == -3;
    assert s8.requests[7].equipmentId == 2 && s8.requests[7].semesterId == 3 && 3 in s8.semesters;
    assert Passes(s8, Some(1), ClubOnly);
  }

  /** The invariants are not vacuous: the run above is reachable, ends with
      an approved admin and an open rental, and shows that the shelf
      overfill needs no hand-built database. */
  lemma ReachableRunOverfillsShelf()
    ensures var s := Run(Empty, [C0, C1] + [C2, C3] + [C4, C5, C6] + [C7, C8, C9]);
            && Valid(s) && AdminReady(s) && 6 in s.rentals && !s.rentals[6].isReturned
            && 2 in s.equipment && s.equipment[2].availableQuantity > s.equipment[2].totalQuantity
  {
    var calls := [C0, C1] + [C2, C3] + [C4, C5, C6] + [C7, C8, C9];
    WitnessAdjustsNothing();
    ReachableStatesAreValid(calls);
    RunSplits(Empty, [C0, C1] + [C2, C3] + [C4, C5, C6], [C7, C8, C9]);
    RunSplits(Empty, [C0, C1] + [C2, C3], [C4, C5, C6]);
    RunSplits(Empty, [C0, C1], [C2, C3]);
    var s1 := Run(Empty, [C0, C1]);
    RunTwo(Empty, C0, C1);
    AdminRegisters();
    var s3 := Run(s1, [C2, C3]);
    RunTwo(s1, C2, C3);
    ClubStocksUp(s1);
    var s6 := Run(s3, [C4, C5, C6]);
    RunThree(s3, C4, C5, C6);
    StudentJoins(s3);
    RunThree(s6, C7, C8, C9);
    LoanAndOverfill(s6);
  }

  /** The same run, stopped once the item and semester exist, followed by an
      anonymous call to `updateEquipmentAvailability` taking one unit off
      the shelf: a reachable database that keeps its structure but no
      longer conserves stock. */
  const Withdraw: Call := Call(None, Adjust(2, -1), 4)

  lemma ReachableAdjustmentBreaksConservation()
    ensures var s := Run(Empty, [C0, C1] + [C2, C3] + [Withdraw]);
            Structural(s) && !Conservation(s)
  {
    ReachableStatesAreValid([C0, C1] + [C2, C3] + [Withdraw]);
    RunSplits(Empty, [C0, C1] + [C2, C3], [Withdraw]);
    RunSplits(Empty, [C0, C1], [C2, C3]);
    var s1 := Run(Empty, [C0, C1]);
    RunTwo(Empty, C0, C1);
    AdminRegisters();
    var s3 := Run(s1, [C2, C3]);
    RunTwo(s1, C2, C3);
    ClubStocksUp(s1);
    assert [Withdraw][1..] == [];
    assert Run(s3, [Withdraw]) == Run(Next(s3, Withdraw), []);
    WithdrawUnbalances(s3);
  }

  lemma WithdrawUnbalances(s: Db)
    requires ItemReady(s, 5) && s.rentals == map[]
    ensures !Conservation(Next(s, Withdraw))
  {
    var s' := Next(s, Withdraw);
    assert s'.rentals == map[] && ItemReady(s', 4);
    OpenQtyOfUnlentItem(s'.rentals, 2, s'.nextId);
  }

  lemma WitnessAdjustsNothing()
    ensures NoAdjustments([C0, C1] + [C2, C3] + [C4, C5, C6] + [C7, C8, C9])
  {
    assert NoAdjustments([C0, C1]) && NoAdjustments([C2, C3]);
    assert NoAdjustments([C4, C5, C6]) && NoAdjustments([C7, C8, C9]);
  }

  lemma RunTwo(s: Db, c: Call, d: Call)
    ensures Run(s, [c, d]) == Next(Next(s, c), d)
  {
    assert [c, d][1..] == [d];
    assert [d][1..] == [];
    assert Run(Next(s, c), [d]) == Run(Next(Next(s, c), d), []);
  }

  lemma RunThree(s: Db, c: Call, d: Call, e: Call)
    ensures Run(s, [c, d, e]) == Next(Next(Next(s, c), d), e)
  {
    assert [c, d, e][1..] == [d, e];
    RunTwo(Next(s, c), d, e);
  }

  /** A call that throws is rolled back whole, so it leaves no trace:
      dropping it from a run changes nothing. */
  lemma FailedCallLeavesNoTrace(s: Db, a: seq<Call>, c: Call, b: seq<Call>)
    requires Step(Run(s, a), c).Err?
    ensures Run(s, a + [c] + b) == Run(s, a + b)
  {
    RunSplits(s, a + [c], b);
    RunSplits(s, a, [c]);
    RunSplits(s, a, b);
    assert [c][1..] == [];
    assert Run(Run(s, a), [c]) == Run(Next(Run(s, a), c), []);
  }

  /** Running two call lists one after the other is running their
      concatenation. */
  lemma {:induction false} RunSplits(s: Db, a: seq<Call>, b: seq<Call>)
    ensures Run(s, a + b) == Run(Run(s, a), b)
    decreases |a|
  {
    if |a| == 0 {
      assert a + b == b;
    } else {
      assert (a + b)[0] == a[0];
      assert (a + b)[1..] == a[1..] + b;
      RunSplits(Next(s, a[0]), a[1..], b);
    }
  }
}

=== FILE: rentals.dfy ===
/** The rental workflow: the overdue projection computed at read time, the
    rental listings, returns, and direct rentals that bypass the request
    step. */
module Rentals {
  import opened Base
  import opened Schema
  import opened Access

  /** `1000 * 60 * 60 * 24`: one day in milliseconds. */
  const DAY_MS: int := 86400000

  /** The late fee, in rupees per overdue day. */
  const DAILY_LATE_FEE: int := 10

  /** The read-time fields added to each listed rental. */
  datatype Projection = Projection(isOverdue: bool, overdueDays: int, calculatedLateFee: int)

  /** `Math.ceil(elapsed / DAY_MS)` on whole milliseconds. */
  function DaysCeil(elapsed: int): (d: int)
    ensures (d - 1) * DAY_MS < elapsed <= d * DAY_MS
  {
    (elapsed + DAY_MS - 1) / DAY_MS
  }

  /** An open rental is overdue once `now` is past its due date; the count of
      started days past due is charged at the daily rate. */
  function Project(r: Rental, now: Time): (p: Projection)
    ensures p.isOverdue <==> !r.isReturned && now > r.dueDate
    ensures p.isOverdue ==> p.overdueDays >= 1
                            && (p.overdueDays - 1) * DAY_MS < now - r.dueDate <= p.overdueDays * DAY_MS
    ensures !p.isOverdue ==> p.overdueDays == 0 && p.calculatedLateFee == 0
    ensures p.calculatedLateFee == DAILY_LATE_FEE * p.overdueDays
  {
    var isOverdue := !r.isReturned && now > r.dueDate;
    var days := if isOverdue then DaysCeil(now - r.dueDate) else 0;
    Projection(isOverdue, days, days * DAILY_LATE_FEE)
  }

  /** Three days after the due date: three overdue days, a fee of 30. */
  lemma ThreeDaysLate(r: Rental)
    requires !r.isReturned
    ensures Project(r, r.dueDate + 3 * DAY_MS) == Projection(true, 3, 30)
  {
  }

  /** One millisecond past due already counts as a whole day. */
  lemma OneMillisecondLateIsOneDay(r: Rental)
    requires !r.isReturned
    ensures Project(r, r.dueDate + 1) == Projection(true, 1, 10)
  {
  }

  /** A listed rental: its id, the stored document, and the projection. */
  datatype RentalView = RentalView(id: Id, rental: Rental, projection: Projection)

  function Views(s: Db, ids: seq<Id>, now: Time): (vs: seq<RentalView>)
    requires forall i :: 0 <= i < |ids| ==> ids[i] in s.rentals
    ensures |vs| == |ids|
    ensures forall i :: 0 <= i < |ids| ==>
      vs[i] == RentalView(ids[i], s.rentals[ids[i]], Project(s.rentals[ids[i]], now))
  {
    if |ids| == 0 then []
    else Views(s, ids[..|ids| - 1], now) + [RentalView(ids[|ids| - 1], s.rentals[ids[|ids| - 1]], Project(s.rentals[ids[|ids| - 1]], now))]
  }

  lemma ViewsShowTheirRentals(s: Db, ids: seq<Id>, now: Time)
    requires forall i :: 0 <= i < |ids| ==> ids[i] in s.rentals
    ensures Faithful(s, Views(s, ids, now), now)
    ensures IdsOf(Views(s, ids, now)) == ids
  {
    var vs := Views(s, ids, now);
    assert forall i :: 0 <= i < |ids| ==> IdsOf(vs)[i] == ids[i];
  }

  /** Every view shows its stored rental and that rental's projection at `now`. */
  predicate Faithful(s: Db, vs: seq<RentalView>, now: Time) {
    forall i :: 0 <= i < |vs| ==>
      vs[i].id in s.rentals && vs[i].rental == s.rentals[vs[i].id] && vs[i].projection == Project(vs[i].rental, now)
  }

  function IdsOf(vs: seq<RentalView>): (ids: seq<Id>)
    ensures |ids| == |vs| && forall i :: 0 <= i < |vs| ==> ids[i] == vs[i].id
  {
    if |vs| == 0 then [] else IdsOf(vs[..|vs| - 1]) + [vs[|vs| - 1].id]
  }

  /** `getMyRentals`: the caller's own rentals, newest first, with projections. */
  function GetMyRentals(s: Db, caller: Option<Id>, now: Time): (r: Result<seq<RentalView>>)
    ensures r.Ok? <==> Passes(s, caller, StudentOnly)
    ensures r.Err? ==> r.error == (if caller.None? then NotAuthenticated else StudentAccessRequired)
    ensures r.Ok? ==> Faithful(s, r.value, now)
    ensures r.Ok? ==> forall k :: k in IdsOf(r.value) <==> k in s.rentals && s.rentals[k].studentId == caller.value
    ensures r.Ok? ==> forall i, j :: 0 <= i < j < |r.value| ==> r.value[i].id > r.value[j].id
  {
    var student :- Authorize(s, caller, StudentOnly);
    var ids := SelectNewestFirst(s.rentals, s.nextId, (t: Rental) => t.studentId == student);
    ViewsShowTheirRentals(s, ids, now);
    Ok(Views(s, ids, now))
  }

  /** `getAllRentals`: every rental, newest first, with projections. */
  function GetAllRentals(s: Db, caller: Option<Id>, now: Time): (r: Result<seq<RentalView>>)
    ensures r.Ok? <==> Passes(s, caller, ClubOnly)
    ensures r.Err? ==> r.error == (if caller.None? then NotAuthenticated else ClubMemberAccessRequired)
    ensures r.Ok? ==> Faithful(s, r.value, now)
    ensures r.Ok? ==> forall k :: k in IdsOf(r.value) <==> k in s.rentals
    ensures r.Ok? ==> forall i, j :: 0 <= i < j < |r.value| ==> r.value[i].id > r.value[j].id
  {
    var _ :- Authorize(s, caller, ClubOnly);
    var ids := SelectNewestFirst(s.rentals, s.nextId, (t: Rental) => true);
    ViewsShowTheirRentals(s, ids, now);
    Ok(Views(s, ids, now))
  }

  predicate ByOverdueDaysDesc(vs: seq<RentalView>) {
    forall i, j :: 0 <= i < j < |vs| ==> vs[i].projection.overdueDays >= vs[j].projection.overdueDays
  }

  /** A view with no fewer overdue days than every element of a sorted
      list may go in front of it. */
  lemma PrependKeepsOrder(h: RentalView, rest: seq<RentalView>)
    requires ByOverdueDaysDesc(rest)
    requires forall i :: 0 <= i < |rest| ==> rest[i].projection.overdueDays <= h.projection.overdueDays
    ensures ByOverdueDaysDesc([h] + rest)
  {
    var r := [h] + rest;
    forall i, j | 0 <= i < j < |r|
      ensures r[i].projection.overdueDays >= r[j].projection.overdueDays
    {
      if i > 0 {
        assert r[i] == rest[i - 1] && r[j] == rest[j - 1];
      }
    }
  }

  /** Inserts `v` after every view with at least as many overdue days, so
      that equal day counts keep their arrival order. */
  function InsertByDays(vs: seq<RentalView>, v: RentalView): (r: seq<RentalView>)
    requires ByOverdueDaysDesc(vs)
    ensures ByOverdueDaysDesc(r)
    ensures multiset(r) == multiset(vs) + multiset{v}
    decreases |vs|
  {
    if |vs| == 0 then [v]
    else if v.projection.overdueDays > vs[0].projection.overdueDays then
      PrependKeepsOrder(v, vs);
      [v] + vs
    else
      var rest := InsertByDays(vs[1..], v);
      assert vs == [vs[0]] + vs[1..];
      InsertedAreBounded(vs, v, rest);
      PrependKeepsOrder(vs[0], rest);
      [vs[0]] + rest
  }

  lemma InsertedAreBounded(vs: seq<RentalView>, v: RentalView, rest: seq<RentalView>)
    requires |vs| > 0 && ByOverdueDaysDesc(vs)
    requires v.projection.overdueDays <= vs[0].projection.overdueDays
    requires multiset(rest) == multiset(vs[1..]) + multiset{v}
    ensures forall i :: 0 <= i < |rest| ==> rest[i].projection.overdueDays <= vs[0].projection.overdueDays
  {
    forall i | 0 <= i < |rest|
      ensures rest[i].projection.overdueDays <= vs[0].projection.overdueDays
    {
      assert rest[i] in multiset(rest);
      if rest[i] != v {
        assert rest[i] in multiset(vs[1..]);
        assert rest[i] in vs[1..];
        var j :| 1 <= j < |vs| && vs[j] == rest[i];
      }
    }
  }

  /** `Array.prototype.sort((a, b) => b.overdueDays - a.overdueDays)`, which
      is stable. */
  function SortByDaysDesc(vs: seq<RentalView>): (r: seq<RentalView>)
    ensures ByOverdueDaysDesc(r)
    ensures multiset(r) == multiset(vs)
    decreases |vs|
  {
    if |vs| == 0 then []
    else
      assert vs == vs[..|vs| - 1] + [vs[|vs| - 1]];
      InsertByDays(SortByDaysDesc(vs[..|vs| - 1]), vs[|vs| - 1])
  }

  predicate IsOverdueAt(t: Rental, now: Time) {
    !t.isReturned && now > t.dueDate
  }

  /** The overdue rentals of one database at one instant, as a set of ids. */
  function OverdueIds(s: Db, now: Time): set<Id> {
    set k | k in s.rentals && IsOverdueAt(s.rentals[k], now)
  }

  /** `getOverdueRentals`: the open rentals past due, most overdue first. */
  function GetOverdueRentals(s: Db, caller: Option<Id>, now: Time): (r: Result<seq<RentalView>>)
    ensures r.Ok? <==> Passes(s, caller, ClubOnly)
    ensures r.Err? ==> r.error == (if caller.None? then NotAuthenticated else ClubMemberAccessRequired)
    ensures r.Ok? ==> Faithful(s, r.value, now)
    ensures r.Ok? ==> forall k :: k in IdsOf(r.value) <==> k in OverdueIds(s, now)
    ensures r.Ok? ==> ByOverdueDaysDesc(r.value)
    ensures r.Ok? ==> |r.value| == |OverdueIds(s, now)|
  {
    var _ :- Authorize(s, caller, ClubOnly);
    var ids := Select(s.rentals, s.nextId, (t: Rental) => IsOverdueAt(t, now));
    var vs := Views(s, ids, now);
    var sorted := SortByDaysDesc(vs);
    OverdueListFacts(s, now, ids, vs, sorted);
    Ok(sorted)
  }

  lemma OverdueListFacts(s: Db, now: Time, ids: seq<Id>, vs: seq<RentalView>, sorted: seq<RentalView>)
    requires ids == Select(s.rentals, s.nextId, (t: Rental) => IsOverdueAt(t, now))
    requires vs == Views(s, ids, now)
    requires multiset(sorted) == multiset(vs)
    ensures Faithful(s, sorted, now)
    ensures forall k :: k in IdsOf(sorted) <==> k in OverdueIds(s, now)
    ensures |sorted| == |OverdueIds(s, now)|
  {
    ViewsShowTheirRentals(s, ids, now);
    PermutationKeepsViews(s, now, vs, sorted);
    OverdueSelectionMembers(s, now);
    assert |sorted| == |vs| by {
      assert |multiset(sorted)| == |multiset(vs)|;
    }
    OverdueSelectionCount(s, now);
  }

  /** Reordering a list of views keeps it faithful and keeps its ids. */
  lemma PermutationKeepsViews(s: Db, now: Time, vs: seq<RentalView>, sorted: seq<RentalView>)
    requires Faithful(s, vs, now)
    requires multiset(sorted) == multiset(vs)
    ensures Faithful(s, sorted, now)
    ensures forall k :: k in IdsOf(sorted) <==> k in IdsOf(vs)
  {
    forall i | 0 <= i < |sorted|
      ensures sorted[i] in vs
    {
      assert sorted[i] in multiset(vs);
    }
    forall k | k in IdsOf(sorted)
      ensures k in IdsOf(vs)
    {
      var i :| 0 <= i < |sorted| && IdsOf(sorted)[i] == k;
      var j :| 0 <= j < |vs| && vs[j] == sorted[i];
      assert IdsOf(vs)[j] == k;
    }
    forall k | k in IdsOf(vs)
      ensures k in IdsOf(sorted)
    {
      var i :| 0 <= i < |vs| && IdsOf(vs)[i] == k;
      assert vs[i] in multiset(sorted);
      var j :| 0 <= j < |sorted| && sorted[j] == vs[i];
      assert IdsOf(sorted)[j] == k;
    }
  }

  lemma OverdueSelectionMembers(s: Db, now: Time)
    ensures forall k :: k in Select(s.rentals, s.nextId, (t: Rental) => IsOverdueAt(t, now)) <==> k in OverdueIds(s, now)
  {
    var ids := Select(s.rentals, s.nextId, (t: Rental) => IsOverdueAt(t, now));
    forall k | k in ids
      ensures k in OverdueIds(s, now)
    {
      var i :| 0 <= i < |ids| && ids[i] == k;
    }
  }

  lemma OverdueSelectionCount(s: Db, now: Time)
    ensures |Select(s.rentals, s.nextId, (t: Rental) => IsOverdueAt(t, now))| == |OverdueIds(s, now)|
  {
    var keep := (t: Rental) => IsOverdueAt(t, now);
    SelectionCardinality(s.rentals, s.nextId, keep);
    assert Chosen(s.rentals, s.nextId, keep) == OverdueIds(s, now);
  }

  /** `getOverdueRentalsCount`: the badge count; a caller who fails the club
      gate sees 0 rather than an error, unless not signed in at all. */
  function GetOverdueRentalsCount(s: Db, caller: Option<Id>, now: Time): (r: Result<nat>)
    ensures caller.None? <==> r.Err?
    ensures r.Err? ==> r.error == NotAuthenticated
    ensures caller.Some? && !Passes(s, caller, ClubOnly) ==> r == Ok(0)
    ensures Passes(s, caller, ClubOnly) ==> r == Ok(|OverdueIds(s, now)|)
  {
    if caller.None? then Err(NotAuthenticated)
    else if !Passes(s, caller, ClubOnly) then Ok(0)
    else Ok(|OverdueIds(s, now)|)
  }

  /** The badge count agrees with the overdue listing. */
  lemma OverdueCountMatchesList(s: Db, caller: Option<Id>, now: Time)
    requires Passes(s, caller, ClubOnly)
    ensures GetOverdueRentalsCount(s, caller, now).value == |GetOverdueRentals(s, caller, now).value|
  {
  }

  /** The fee `returnEquipment` stores: `args.lateFee || 0`. */
  function StoredFee(lateFee: Option<int>): (fee: int)
    ensures lateFee.None? ==> fee == 0
    ensures lateFee.Some? ==> fee == lateFee.value
  {
    match lateFee
    case None => 0
    case Some(f) => if f == 0 then 0 else f
  }

  /** `returnEquipment`. */
  function ReturnEquipment(s: Db, caller: Option<Id>, rentalId: Id, lateFee: Option<int>, now: Time): (r: Result<Committed<Id>>)
    ensures r.Ok? <==> Passes(s, caller, ClubOnly) && rentalId in s.rentals && !s.rentals[rentalId].isReturned
    ensures !Passes(s, caller, ClubOnly) ==> r == Err(if caller.None? then NotAuthenticated else ClubMemberAccessRequired)
    ensures Passes(s, caller, ClubOnly) && rentalId !in s.rentals ==> r == Err(RentalNotFound)
    ensures Passes(s, caller, ClubOnly) && rentalId in s.rentals && s.rentals[rentalId].isReturned ==> r == Err(AlreadyReturned)
    ensures r.Ok? ==>
      var s', t := r.value.state, s.rentals[rentalId];
      && r.value.value == rentalId
      && s'.rentals == s.rentals[rentalId := t.(isReturned := true, returnDate := Some(now), lateFee := Some(StoredFee(lateFee)))]
      && (t.equipmentId in s.equipment ==>
            var e := s.equipment[t.equipmentId];
            s'.equipment == s.equipment[t.equipmentId := e.(availableQuantity := e.availableQuantity + t.quantity)])
      && (t.equipmentId !in s.equipment ==> s'.equipment == s.equipment)
      && s'.log == s.log + [LogEntry(caller.value, EquipmentReturned, Some(rentalId), now)]
      && s' == s.(equipment := s'.equipment, rentals := s'.rentals, log := s'.log)
  {
    var actor :- Authorize(s, caller, ClubOnly);
    if rentalId !in s.rentals then Err(RentalNotFound)
    else
      var t := s.rentals[rentalId];
      if t.isReturned then Err(AlreadyReturned)
      else
        var s1 := if t.equipmentId in s.equipment then
                    var e := s.equipment[t.equipmentId];
                    s.(equipment := s.equipment[t.equipmentId := e.(availableQuantity := e.availableQuantity + t.quantity)])
                  else s;
        var closed := t.(isReturned := true, returnDate := Some(now), lateFee := Some(StoredFee(lateFee)));
        var s2 := s1.(rentals := s1.rentals[rentalId := closed]);
        Ok(Committed(Record(s2, actor, EquipmentReturned, Some(rentalId), now), rentalId))
  }

  /** A rental is closed at most once: a second return fails. */
  lemma ReturnedRentalsAreTerminal(s: Db, caller: Option<Id>, rentalId: Id, lateFee: Option<int>, now: Time, later: Time)
    requires ReturnEquipment(s, caller, rentalId, lateFee, now).Ok?
    ensures var s' := ReturnEquipment(s, caller, rentalId, lateFee, now).value.state;
            ReturnEquipment(s', caller, rentalId, lateFee, later) == Err(AlreadyReturned)
  {
  }

  /** The stored fee is whatever the caller passes, never the projection:
      returning a rental three days late without a fee records 0 although
      the projection shows 30. */
  lemma ReturnIgnoresProjectedFee(s: Db, caller: Option<Id>, rentalId: Id)
    requires rentalId in s.rentals
    requires ReturnEquipment(s, caller, rentalId, None, s.rentals[rentalId].dueDate + 3 * DAY_MS).Ok?
    ensures var t := s.rentals[rentalId];
            var now := t.dueDate + 3 * DAY_MS;
            && Project(t, now).calculatedLateFee == 30
            && ReturnEquipment(s, caller, rentalId, None, now).value.state.rentals[rentalId].lateFee == Some(0)
  {
  }

  /** What a direct rental needs of its target profile: an approved student. */
  predicate ValidStudent(s: Db, studentId: Id) {
    studentId in s.profiles && s.profiles[studentId].isApproved && s.profiles[studentId].role == Student
  }

  /** `createDirectRental`: a club member lends stock without a request. The
      semester must exist but need not be active. */
  function CreateDirectRental(s: Db, caller: Option<Id>, studentId: Id, equipmentId: Id, semesterId: Id,
                              quantity: int, customDueDate: Option<Time>, now: Time): (r: Result<Committed<Id>>)
    ensures r.Ok? <==> && Passes(s, caller, ClubOnly) && ValidStudent(s, studentId)
                       && equipmentId in s.equipment && s.equipment[equipmentId].isActive
                       && s.equipment[equipmentId].availableQuantity >= quantity
                       && semesterId in s.semesters
    ensures !Passes(s, caller, ClubOnly) ==> r == Err(if caller.None? then NotAuthenticated else ClubMemberAccessRequired)
    ensures Passes(s, caller, ClubOnly) && !ValidStudent(s, studentId) ==> r == Err(InvalidStudent)
    ensures (Passes(s, caller, ClubOnly) && ValidStudent(s, studentId)
             && (equipmentId !in s.equipment || !s.equipment[equipmentId].isActive
                 || s.equipment[equipmentId].availableQuantity < quantity)) ==> r == Err(InsufficientEquipment)
    ensures r.Ok? ==>
      var s', id, e := r.value.state, r.value.value, s.equipment[equipmentId];
      && id == s.nextId && id !in s.rentals && s'.nextId == s.nextId + 1
      && s'.equipment == s.equipment[equipmentId := e.(availableQuantity := e.availableQuantity - quantity)]
      && s'.rentals == s.rentals[id := Rental(studentId, equipmentId, semesterId, None, quantity, now,
                                              customDueDate.GetOr(s.semesters[semesterId].endDate),
                                              None, None, false, caller.value)]
      && s'.log == s.log + [LogEntry(caller.value, EquipmentRented, Some(id), now)]
      && s' == s.(equipment := s'.equipment, rentals := s'.rentals, log := s'.log, nextId := s'.nextId)
  {
    var actor :- Authorize(s, caller, ClubOnly);
    if !ValidStudent(s, studentId) then Err(InvalidStudent)
    else if equipmentId !in s.equipment || !s.equipment[equipmentId].isActive
            || s.equipment[equipmentId].availableQuantity < quantity then Err(InsufficientEquipment)
    else if semesterId !in s.semesters then Err(SemesterNotFound)
    else
      var e := s.equipment[equipmentId];
      var id := s.nextId;
      var rental := Rental(studentId, equipmentId, semesterId, None, quantity, now,
                           customDueDate.GetOr(s.semesters[semesterId].endDate), None, None, false, actor);
      var s1 := s.(equipment := s.equipment[equipmentId := e.(availableQuantity := e.availableQuantity - quantity)],
                   rentals := s.rentals[id := rental], nextId := id + 1);
      Ok(Committed(Record(s1, actor, EquipmentRented, Some(id), now), id))
  }
}

=== FILE: requests.dfy ===
/** The request workflow: a student submits a pending request; a club
    member approves it (reserving stock and opening a rental) or rejects it.
    Reviewed requests never change again. */
module Requests {
  import opened Base
  import opened Schema
  import opened Access

  /** The two decisions `reviewRequest` accepts. */
  datatype Verdict = Approve | Reject

  function StatusOf(v: Verdict): RequestStatus {
    match v
    case Approve => Approved
    case Reject => Rejected
  }

  predicate HasPending(s: Db, student: Id, equipmentId: Id) {
    exists k :: k in s.requests && s.requests[k].studentId == student
                && s.requests[k].equipmentId == equipmentId && s.requests[k].status == Pending
  }

  /** No student holds two pending requests for one item. */
  predicate OnePendingPerPair(requests: map<Id, Request>) {
    forall a, b ::
      a in requests && b in requests && requests[a].status == Pending && requests[b].status == Pending
      && requests[a].studentId == requests[b].studentId && requests[a].equipmentId == requests[b].equipmentId
      ==> a == b
  }

  predicate Submittable(s: Db, equipmentId: Id, quantity: int, semesterId: Id) {
    && equipmentId in s.equipment && s.equipment[equipmentId].isActive
    && s.equipment[equipmentId].availableQuantity >= quantity
    && semesterId in s.semesters && s.semesters[semesterId].isActive
  }

  /** `submitRequest`. The stock is checked but not reserved. */
  function SubmitRequest(s: Db, caller: Option<Id>, equipmentId: Id, quantity: int, semesterId: Id,
                         now: Time): (r: Result<Committed<Id>>)
    ensures r.Ok? <==> Passes(s, caller, StudentOnly) && Submittable(s, equipmentId, quantity, semesterId)
                       && !HasPending(s, caller.value, equipmentId)
    ensures !Passes(s, caller, StudentOnly) ==> r == Err(if caller.None? then NotAuthenticated else StudentAccessRequired)
    ensures Passes(s, caller, StudentOnly) && (equipmentId !in s.equipment || !s.equipment[equipmentId].isActive)
            ==> r == Err(EquipmentUnavailable)
    ensures (Passes(s, caller, StudentOnly) && equipmentId in s.equipment && s.equipment[equipmentId].isActive
             && s.equipment[equipmentId].availableQuantity < quantity) ==> r == Err(InsufficientEquipment)
    ensures (Passes(s, caller, StudentOnly) && equipmentId in s.equipment && s.equipment[equipmentId].isActive
             && s.equipment[equipmentId].availableQuantity >= quantity
             && (semesterId !in s.semesters || !s.semesters[semesterId].isActive)) ==> r == Err(InvalidSession)
    ensures (Passes(s, caller, StudentOnly) && Submittable(s, equipmentId, quantity, semesterId)
             && HasPending(s, caller.value, equipmentId)) ==> r == Err(DuplicatePendingRequest)
    ensures r.Ok? ==>
      var s', id := r.value.state, r.value.value;
      && id == s.nextId && id !in s.requests && s'.nextId == s.nextId + 1
      && s'.requests == s.requests[id := Request(caller.value, equipmentId, semesterId, quantity, Pending, None, now, None, None)]
      && s'.equipment == s.equipment && s'.rentals == s.rentals
      && s'.log == s.log + [LogEntry(caller.value, RequestSubmitted, Some(id), now)]
      && s' == s.(requests := s'.requests, log := s'.log, nextId := s'.nextId)
  {
    var student :- Authorize(s, caller, StudentOnly);
    if equipmentId !in s.equipment || !s.equipment[equipmentId].isActive then Err(EquipmentUnavailable)
    else if s.equipment[equipmentId].availableQuantity < quantity then Err(InsufficientEquipment)
    else if semesterId !in s.semesters || !s.semesters[semesterId].isActive then Err(InvalidSession)
    else if HasPending(s, student, equipmentId) then Err(DuplicatePendingRequest)
    else
      var id := s.nextId;
      var request := Request(student, equipmentId, semesterId, quantity, Pending, None, now, None, None);
      var s1 := s.(requests := s.requests[id := request], nextId := id + 1);
      Ok(Committed(Record(s1, student, RequestSubmitted, Some(id), now), id))
  }

  /** What an approval needs besides a pending request: the item (active or
      not) with enough stock, and the semester. */
  predicate Approvable(s: Db, req: Request) {
    && req.equipmentId in s.equipment && s.equipment[req.equipmentId].availableQuantity >= req.quantity
    && req.semesterId in s.semesters
  }

  /** The approval branch: reserve the stock, open the linked rental due at
      the semester's end, and record the rental. */
  function ApproveStep(s: Db, reviewer: Id, requestId: Id, now: Time): (r: Result<Db>)
    requires requestId in s.requests
    ensures r.Ok? <==> Approvable(s, s.requests[requestId])
    ensures var req := s.requests[requestId];
            (req.equipmentId !in s.equipment || s.equipment[req.equipmentId].availableQuantity < req.quantity)
            ==> r == Err(InsufficientEquipment)
    ensures var req := s.requests[requestId];
            (req.equipmentId in s.equipment && s.equipment[req.equipmentId].availableQuantity >= req.quantity
             && req.semesterId !in s.semesters) ==> r == Err(SemesterNotFound)
  {
    var req := s.requests[requestId];
    if req.equipmentId !in s.equipment || s.equipment[req.equipmentId].availableQuantity < req.quantity then
      Err(InsufficientEquipment)
    else if req.semesterId !in s.semesters then Err(SemesterNotFound)
    else
      var e := s.equipment[req.equipmentId];
      var id := s.nextId;
      var rental := Rental(req.studentId, req.equipmentId, req.semesterId, Some(requestId), req.quantity,
                           now, s.semesters[req.semesterId].endDate, None, None, false, reviewer);
      var s1 := s.(equipment := s.equipment[req.equipmentId := e.(availableQuantity := e.availableQuantity - req.quantity)],
                   rentals := s.rentals[id := rental], nextId := id + 1);
      Ok(Record(s1, reviewer, EquipmentRented, Some(requestId), now))
  }

  /** `reviewRequest`. */
  function ReviewRequest(s: Db, caller: Option<Id>, requestId: Id, verdict: Verdict, reason: Option<string>,
                         now: Time): (r: Result<Committed<Id>>)
    ensures r.Ok? <==> Passes(s, caller, ClubOnly) && requestId in s.requests
                       && s.requests[requestId].status == Pending
                       && (verdict == Approve ==> Approvable(s, s.requests[requestId]))
    ensures !Passes(s, caller, ClubOnly) ==> r == Err(if caller.None? then NotAuthenticated else ClubMemberAccessRequired)
    ensures Passes(s, caller, ClubOnly) && requestId !in s.requests ==> r == Err(RequestNotFound)
    ensures Passes(s, caller, ClubOnly) && requestId in s.requests && s.requests[requestId].status != Pending
            ==> r == Err(AlreadyReviewed)
    ensures Passes(s, caller, ClubOnly) && requestId in s.requests && s.requests[requestId].status == Pending
            && verdict == Approve ==>
      var req := s.requests[requestId];
      var stocked := req.equipmentId in s.equipment && s.equipment[req.equipmentId].availableQuantity >= req.quantity;
      && (!stocked ==> r == Err(InsufficientEquipment))
      && (stocked && req.semesterId !in s.semesters ==> r == Err(SemesterNotFound))
    ensures r.Ok? ==>
      var s', req := r.value.state, s.requests[requestId];
      && r.value.value == requestId
      && s'.requests == s.requests[requestId := req.(status := StatusOf(verdict), reason := reason,
                                                     reviewedBy := caller, reviewDate := Some(now))]
      && s'.profiles == s.profiles && s'.semesters == s.semesters && s'.users == s.users
    ensures r.Ok? && verdict == Reject ==>
      var s' := r.value.state;
      && s'.equipment == s.equipment && s'.rentals == s.rentals && s'.nextId == s.nextId
      && s'.log == s.log + [LogEntry(caller.value, RequestRejected, Some(requestId), now)]
    ensures r.Ok? && verdict == Approve ==>
      var s', req, id := r.value.state, s.requests[requestId], s.nextId;
      var e := s.equipment[req.equipmentId];
      && s'.equipment == s.equipment[req.equipmentId := e.(availableQuantity := e.availableQuantity - req.quantity)]
      && id !in s.rentals && s'.nextId == id + 1
      && s'.rentals == s.rentals[id := Rental(req.studentId, req.equipmentId, req.semesterId, Some(requestId),
                                              req.quantity, now, s.semesters[req.semesterId].endDate,
                                              None, None, false, caller.value)]
      && s'.log == s.log + [LogEntry(caller.value, EquipmentRented, Some(requestId), now),
                            LogEntry(caller.value, RequestApproved, Some(requestId), now)]
  {
    var reviewer :- Authorize(s, caller, ClubOnly);
    if requestId !in s.requests then Err(RequestNotFound)
    else
      var req := s.requests[requestId];
      if req.status != Pending then Err(AlreadyReviewed)
      else
        var s1 :- if verdict == Approve then ApproveStep(s, reviewer, requestId, now) else Ok(s);
        var reviewed := req.(status := StatusOf(verdict), reason := reason, reviewedBy := Some(reviewer), reviewDate := Some(now));
        var s2 := s1.(requests := s1.requests[requestId := reviewed]);
        Ok(Committed(Record(s2, reviewer, if verdict == Approve then RequestApproved else RequestRejected, Some(requestId), now),
                     requestId))
  }

  /** Approval re-checks the stock but not whether the item is still active. */
  lemma ApprovalIgnoresInactiveEquipment(s: Db, caller: Option<Id>, requestId: Id, reason: Option<string>, now: Time)
    requires Passes(s, caller, ClubOnly) && requestId in s.requests && s.requests[requestId].status == Pending
    requires Approvable(s, s.requests[requestId]) && !s.equipment[s.requests[requestId].equipmentId].isActive
    ensures ReviewRequest(s, caller, requestId, Approve, reason, now).Ok?
  {
  }

  /** A reviewed request is final: reviewing it again fails, whatever the verdict. */
  lemma ReviewedRequestsAreTerminal(s: Db, caller: Option<Id>, requestId: Id, verdict: Verdict, reason: Option<string>, now: Time)
    requires requestId in s.requests && s.requests[requestId].status != Pending
    ensures ReviewRequest(s, caller, requestId, verdict, reason, now).Err?
    ensures Passes(s, caller, ClubOnly) ==> ReviewRequest(s, caller, requestId, verdict, reason, now).error == AlreadyReviewed
  {
  }

  /** `getMyRequests`: the caller's own requests, newest first. */
  function GetMyRequests(s: Db, caller: Option<Id>): (r: Result<seq<Id>>)
    ensures r.Ok? <==> Passes(s, caller, StudentOnly)
    ensures r.Err? ==> r.error == (if caller.None? then NotAuthenticated else StudentAccessRequired)
    ensures r.Ok? ==> forall k :: k in r.value <==> k in s.requests && s.requests[k].studentId == caller.value
    ensures r.Ok? ==> forall i, j :: 0 <= i < j < |r.value| ==> r.value[i] > r.value[j]
  {
    var student :- Authorize(s, caller, StudentOnly);
    Ok(SelectNewestFirst(s.requests, s.nextId, (q: Request) => q.studentId == student))
  }

  predicate IsPending(q: Request) {
    q.status == Pending
  }

  /** `getPendingRequests`: every pending request, newest first. */
  function GetPendingRequests(s: Db, caller: Option<Id>): (r: Result<seq<Id>>)
    ensures r.Ok? <==> Passes(s, caller, ClubOnly)
    ensures r.Err? ==> r.error == (if caller.None? then NotAuthenticated else ClubMemberAccessRequired)
    ensures r.Ok? ==> forall k :: k in r.value <==> k in s.requests && s.requests[k].status == Pending
    ensures r.Ok? ==> forall i, j :: 0 <= i < j < |r.value| ==> r.value[i] > r.value[j]
  {
    var _ :- Authorize(s, caller, ClubOnly);
    var ids := SelectNewestFirst(s.requests, s.nextId, IsPending);
    assert forall k :: k in ids ==> k in s.requests && IsPending(s.requests[k]);
    Ok(ids)
  }

  /** `getAllRequests`: every request, newest first. */
  function GetAllRequests(s: Db, caller: Option<Id>): (r: Result<seq<Id>>)
    ensures r.Ok? <==> Passes(s, caller, ClubOnly)
    ensures r.Err? ==> r.error == (if caller.None? then NotAuthenticated else ClubMemberAccessRequired)
    ensures r.Ok? ==> forall k :: k in r.value <==> k in s.requests
    ensures r.Ok? ==> forall i, j :: 0 <= i < j < |r.value| ==> r.value[i] > r.value[j]
  {
    var _ :- Authorize(s, caller, ClubOnly);
    Ok(SelectNewestFirst(s.requests, s.nextId, (q: Request) => true))
  }

  function PendingIds(s: Db): set<Id> {
    set k | k in s.requests && s.requests[k].status == Pending
  }

  /** `getPendingRequestsCount`: the badge count; a caller who fails the club
      gate sees 0 rather than an error, unless not signed in at all. */
  function GetPendingRequestsCount(s: Db, caller: Option<Id>): (r: Result<nat>)
    ensures caller.None? <==> r.Err?
    ensures r.Err? ==> r.error == NotAuthenticated
    ensures caller.Some? && !Passes(s, caller, ClubOnly) ==> r == Ok(0)
    ensures Passes(s, caller, ClubOnly) ==> r == Ok(|PendingIds(s)|)
  {
    if caller.None? then Err(NotAuthenticated)
    else if !Passes(s, caller, ClubOnly) then Ok(0)
    else Ok(|PendingIds(s)|)
  }

  /** The badge count agrees with the length of the pending list. */
  lemma PendingCountMatchesList(s: Db, caller: Option<Id>)
    requires Passes(s, caller, ClubOnly)
    ensures GetPendingRequestsCount(s, caller).value == |GetPendingRequests(s, caller).value|
  {
    SelectionCardinality(s.requests, s.nextId, IsPending);
    assert Chosen(s.requests, s.nextId, IsPending) == PendingIds(s);
  }
}

=== FILE: schema.dfy ===
/** The record shapes and closed enumerations of the schema, and the
    whole database as one immutable value. */
module Schema {
  import opened Base

  datatype Role = Student | Member | Admin

  /** The `users` table of the auth library: only the e-mail is read. */
  datatype AuthUser = AuthUser(email: Option<string>)

  datatype Profile = Profile(
    userId: Id,
    role: Role,
    isApproved: bool,
    studentId: Option<string>,
    name: string,
    email: string,
    phone: Option<string>,
    department: Option<string>,
    year: Option<string>)

  datatype Equipment = Equipment(
    name: string,
    category: string,
    description: Option<string>,
    totalQuantity: int,
    availableQuantity: int,
    isActive: bool)

  datatype Semester = Semester(
    code: string,
    name: string,
    startDate: Time,
    endDate: Time,
    isActive: bool)

  datatype RequestStatus = Pending | Approved | Rejected

  datatype Request = Request(
    studentId: Id,
    equipmentId: Id,
    semesterId: Id,
    quantity: int,
    status: RequestStatus,
    reason: Option<string>,
    requestDate: Time,
    reviewedBy: Option<Id>,
    reviewDate: Option<Time>)

  datatype Rental = Rental(
    studentId: Id,
    equipmentId: Id,
    semesterId: Id,
    requestId: Option<Id>,
    quantity: int,
    startDate: Time,
    dueDate: Time,
    returnDate: Option<Time>,
    lateFee: Option<int>,
    isReturned: bool,
    rentedBy: Id)

  datatype ActionType =
    | RequestSubmitted
    | RequestApproved
    | RequestRejected
    | EquipmentRented
    | EquipmentReturned
    | UserApproved
    | UserRejected
    | EquipmentAdded
    | EquipmentUpdated
    | SemesterCreated

  /** An audit entry: who acted, what kind of action, on which document. */
  datatype LogEntry = LogEntry(userId: Id, actionType: ActionType, targetId: Option<Id>, timestamp: Time)

  /** The database. Every document id of every table is below `nextId`. */
  datatype State = State(
    users: map<Id, AuthUser>,
    profiles: map<Id, Profile>,
    equipment: map<Id, Equipment>,
    semesters: map<Id, Semester>,
    requests: map<Id, Request>,
    rentals: map<Id, Rental>,
    log: seq<LogEntry>,
    nextId: nat)

  predicate FreshIds(s: State) {
    && (forall k :: k in s.users ==> k < s.nextId)
    && (forall k :: k in s.profiles ==> k < s.nextId)
    && (forall k :: k in s.equipment ==> k < s.nextId)
    && (forall k :: k in s.semesters ==> k < s.nextId)
    && (forall k :: k in s.requests ==> k < s.nextId)
    && (forall k :: k in s.rentals ==> k < s.nextId)
  }

  /** A database as the store keeps it: every id it hands out is fresh. */
  type Db = s: State | FreshIds(s) witness State(map[], map[], map[], map[], map[], map[], [], 0)

  /** A committed mutation: the new database and the handler's return value. */
  datatype Committed<+T> = Committed(state: Db, value: T)

  /** Appends one audit entry. */
  function Record(s: Db, actor: Id, action: ActionType, target: Option<Id>, now: Time): (s': Db)
    ensures s'.log == s.log + [LogEntry(actor, action, target, now)]
    ensures s' == s.(log := s'.log)
  {
    s.(log := s.log + [LogEntry(actor, action, target, now)])
  }
}

=== FILE: semesters.dfy ===
/** The semester registry: listing, the active-semester lookup, creation
    with a unique code, and patching; activating one semester deactivates
    the others. */
module Semesters {
  import opened Base
  import opened Schema
  import opened Access

  /** The optional arguments of `updateSemester`: None leaves a field as it is. */
  datatype SemesterPatch = SemesterPatch(
    code: Option<string>,
    name: Option<string>,
    startDate: Option<Time>,
    endDate: Option<Time>,
    isActive: Option<bool>)

  predicate IsActiveSemester(t: Semester) {
    t.isActive
  }

  predicate AtMostOneActive(sems: map<Id, Semester>) {
    forall a, b :: a in sems && b in sems && sems[a].isActive && sems[b].isActive ==> a == b
  }

  predicate CodeTaken(sems: map<Id, Semester>, code: string) {
    exists k :: k in sems && sems[k].code == code
  }

  predicate CodesUnique(sems: map<Id, Semester>) {
    forall a, b :: a in sems && b in sems && sems[a].code == sems[b].code ==> a == b
  }

  /** The deactivation loop of both mutations: every active semester other
      than `keep` is patched to inactive. */
  function DeactivateOthers(sems: map<Id, Semester>, keep: Option<Id>): (r: map<Id, Semester>)
    ensures r.Keys == sems.Keys
    ensures forall k :: k in r && r[k].isActive ==> Some(k) == keep
    ensures forall k :: k in r && Some(k) == keep ==> r[k] == sems[k]
    ensures forall k :: k in r ==> r[k].(isActive := sems[k].isActive) == sems[k]
  {
    map k | k in sems :: if sems[k].isActive && Some(k) != keep then sems[k].(isActive := false) else sems[k]
  }

  /** `getAllSemesters`: every semester, newest first, for any approved caller. */
  function GetAllSemesters(s: Db, caller: Option<Id>): (r: Result<seq<Id>>)
    ensures r.Ok? <==> Passes(s, caller, ApprovedOnly)
    ensures r.Err? ==> r.error == (if caller.None? then NotAuthenticated else AccessDenied)
    ensures r.Ok? ==> forall i :: 0 <= i < |r.value| ==> r.value[i] in s.semesters
    ensures r.Ok? ==> forall i, j :: 0 <= i < j < |r.value| ==> r.value[i] > r.value[j]
    ensures r.Ok? ==> forall k :: k in s.semesters ==> k in r.value
  {
    var _ :- Authorize(s, caller, ApprovedOnly);
    Ok(SelectNewestFirst(s.semesters, s.nextId, (t: Semester) => true))
  }

  /** `getActiveSemester`: the one active semester, None when there is none,
      and the error `.unique()` raises when there are several. */
  function GetActiveSemester(s: Db, caller: Option<Id>): (r: Result<Option<Id>>)
    ensures !Passes(s, caller, ApprovedOnly) ==> r == Err(if caller.None? then NotAuthenticated else AccessDenied)
    ensures r.Ok? && r.value.Some? ==> r.value.value in s.semesters && s.semesters[r.value.value].isActive
    ensures r.Ok? && r.value.None? ==> forall k :: k in s.semesters ==> !s.semesters[k].isActive
    ensures Passes(s, caller, ApprovedOnly) && AtMostOneActive(s.semesters) ==> r.Ok?
    ensures Passes(s, caller, ApprovedOnly) && !AtMostOneActive(s.semesters) ==> r == Err(ActiveSemesterNotUnique)
  {
    var _ :- Authorize(s, caller, ApprovedOnly);
    var actives := Select(s.semesters, s.nextId, IsActiveSemester);
    if |actives| == 0 then
      assert forall k :: k in s.semesters && k < s.nextId ==> !IsActiveSemester(s.semesters[k]);
      Ok(None)
    else if |actives| == 1 then
      assert forall k :: k in s.semesters && IsActiveSemester(s.semesters[k]) ==> k == actives[0];
      Ok(Some(actives[0]))
    else
      assert actives[0] != actives[1];
      Err(ActiveSemesterNotUnique)
  }

  /** `createSemester`. */
  function CreateSemester(s: Db, caller: Option<Id>, code: string, name: string,
                          startDate: Time, endDate: Time, setAsActive: Option<bool>,
                          now: Time): (r: Result<Committed<Id>>)
    ensures r.Ok? <==> Passes(s, caller, ClubOnly) && !CodeTaken(s.semesters, code)
    ensures !Passes(s, caller, ClubOnly) ==> r == Err(if caller.None? then NotAuthenticated else ClubMemberAccessRequired)
    ensures Passes(s, caller, ClubOnly) && CodeTaken(s.semesters, code) ==> r == Err(DuplicateSemesterCode)
    ensures r.Ok? ==>
      var s', id := r.value.state, r.value.value;
      && id == s.nextId && id !in s.semesters && s'.nextId == s.nextId + 1
      && s'.semesters.Keys == s.semesters.Keys + {id}
      && s'.semesters[id] == Semester(code, name, startDate, endDate, setAsActive == Some(true))
      && (setAsActive == Some(true) ==> forall k :: k in s'.semesters && s'.semesters[k].isActive ==> k == id)
      && (setAsActive == Some(true) ==> forall k :: k in s.semesters ==> s'.semesters[k] == s.semesters[k].(isActive := false))
      && (setAsActive != Some(true) ==> forall k :: k in s.semesters ==> s'.semesters[k] == s.semesters[k])
      && (forall k :: k in s.semesters ==> s'.semesters[k].code == s.semesters[k].code)
      && s'.log == s.log + [LogEntry(caller.value, SemesterCreated, Some(id), now)]
      && s' == s.(semesters := s'.semesters, log := s'.log, nextId := s'.nextId)
  {
    var actor :- Authorize(s, caller, ClubOnly);
    if CodeTaken(s.semesters, code) then Err(DuplicateSemesterCode)
    else
      var active := setAsActive == Some(true);
      var sems := if active then DeactivateOthers(s.semesters, None) else s.semesters;
      var id := s.nextId;
      var s1 := s.(semesters := sems[id := Semester(code, name, startDate, endDate, active)], nextId := id + 1);
      Ok(Committed(Record(s1, actor, SemesterCreated, Some(id), now), id))
  }

  function ApplySemesterPatch(t: Semester, p: SemesterPatch): (t': Semester)
    ensures t'.code == p.code.GetOr(t.code) && t'.name == p.name.GetOr(t.name)
    ensures t'.startDate == p.startDate.GetOr(t.startDate) && t'.endDate == p.endDate.GetOr(t.endDate)
    ensures t'.isActive == p.isActive.GetOr(t.isActive)
  {
    Semester(p.code.GetOr(t.code), p.name.GetOr(t.name), p.startDate.GetOr(t.startDate),
             p.endDate.GetOr(t.endDate), p.isActive.GetOr(t.isActive))
  }

  /** `updateSemester`. No audit entry is written and the new code is not
      checked for uniqueness. */
  function UpdateSemester(s: Db, caller: Option<Id>, id: Id, patch: SemesterPatch): (r: Result<Committed<Id>>)
    ensures r.Ok? <==> Passes(s, caller, ClubOnly) && id in s.semesters
    ensures !Passes(s, caller, ClubOnly) ==> r == Err(if caller.None? then NotAuthenticated else ClubMemberAccessRequired)
    ensures Passes(s, caller, ClubOnly) && id !in s.semesters ==> r == Err(SemesterNotFound)
    ensures r.Ok? ==>
      var s' := r.value.state;
      && r.value.value == id
      && s'.semesters.Keys == s.semesters.Keys
      && s'.semesters[id] == ApplySemesterPatch(s.semesters[id], patch)
      && (patch.isActive == Some(true) ==> forall k :: k in s'.semesters && s'.semesters[k].isActive ==> k == id)
      && (patch.isActive != Some(true) ==> forall k :: k in s.semesters && k != id ==> s'.semesters[k] == s.semesters[k])
      && (forall k :: k in s.semesters && k != id ==> s'.semesters[k].(isActive := s.semesters[k].isActive) == s.semesters[k])
      && s' == s.(semesters := s'.semesters)
  {
    var _ :- Authorize(s, caller, ClubOnly);
    if id !in s.semesters then Err(SemesterNotFound)
    else
      var sems := if patch.isActive == Some(true) then DeactivateOthers(s.semesters, Some(id)) else s.semesters;
      Ok(Committed(s.(semesters := sems[id := ApplySemesterPatch(sems[id], patch)]), id))
  }

  /** Neither mutation can leave two semesters active. */
  lemma SemesterMutationsKeepOneActive(s: Db, caller: Option<Id>, code: string, name: string,
                                       startDate: Time, endDate: Time, setAsActive: Option<bool>,
                                       id: Id, patch: SemesterPatch, now: Time)
    requires AtMostOneActive(s.semesters)
    ensures var r := CreateSemester(s, caller, code, name, startDate, endDate, setAsActive, now);
            r.Ok? ==> AtMostOneActive(r.value.state.semesters)
    ensures var r := UpdateSemester(s, caller, id, patch);
            r.Ok? ==> AtMostOneActive(r.value.state.semesters)
  {
    var r := CreateSemester(s, caller, code, name, startDate, endDate, setAsActive, now);
    if r.Ok? && setAsActive != Some(true) {
      var s' := r.value.state;
      assert !s'.semesters[r.value.value].isActive;
    }
    var u := UpdateSemester(s, caller, id, patch);
    if u.Ok? && patch.isActive != Some(true) {
      var s' := u.value.state;
      forall a, b | a in s'.semesters && b in s'.semesters && s'.semesters[a].isActive && s'.semesters[b].isActive
        ensures a == b
      {
        assert s'.semesters[a].isActive ==> a == id || s.semesters[a].isActive;
        assert s'.semesters[b].isActive ==> b == id || s.semesters[b].isActive;
        if a == id || b == id {
          assert patch.isActive.None? && s.semesters[id].isActive;
        }
      }
    }
  }

  /** `createSemester` keeps codes unique, but `updateSemester` does not check
      the new code: two semesters can end up sharing one. */
  lemma UpdateSemesterCanDuplicateCode()
    ensures exists s: Db, caller: Option<Id>, id: Id, patch: SemesterPatch ::
      CodesUnique(s.semesters) &&
      var r := UpdateSemester(s, caller, id, patch);
      r.Ok? && !CodesUnique(r.value.state.semesters)
  {
    var admin := Profile(0, Admin, true, None, "a", "a@x", None, None, None);
    var s: Db := State(map[], map[0 := admin], map[], map[1 := Semester("W25", "Winter", 0, 10, true),
                   2 := Semester("S25", "Summer", 20, 30, false)], map[], map[], [], 3);
    var patch := SemesterPatch(Some("W25"), None, None, None, None);
    var r := UpdateSemester(s, Some(0), 2, patch);
    assert r.Ok?;
    assert r.value.state.semesters[1].code == r.value.state.semesters[2].code;
  }

  lemma CreateSemesterKeepsCodesUnique(s: Db, caller: Option<Id>, code: string, name: string,
                                       startDate: Time, endDate: Time, setAsActive: Option<bool>, now: Time)
    requires CodesUnique(s.semesters)
    ensures var r := CreateSemester(s, caller, code, name, startDate, endDate, setAsActive, now);
            r.Ok? ==> CodesUnique(r.value.state.semesters)
  {
  }
}

=== FILE: text_order.dfy ===
/** The ordering JavaScript's default `sort()` puts on strings (character by
    character, a proper prefix first), and "deduplicate then sort" as used
    by the category listing. */
module TextOrder {
  import opened Base

  /** `a` sorts strictly before `b`. */
  predicate Below(a: string, b: string)
    decreases |a|
  {
    if |a| == 0 then |b| > 0
    else if |b| == 0 then false
    else if a[0] != b[0] then a[0] < b[0]
    else Below(a[1..], b[1..])
  }

  lemma {:induction false} BelowIrreflexive(a: string)
    ensures !Below(a, a)
    decreases |a|
  {
    if |a| > 0 {
      BelowIrreflexive(a[1..]);
    }
  }

  lemma {:induction false} BelowTransitive(a: string, b: string, c: string)
    requires Below(a, b) && Below(b, c)
    ensures Below(a, c)
    decreases |a|
  {
    if |a| > 0 && a[0] == b[0] && b[0] == c[0] {
      BelowTransitive(a[1..], b[1..], c[1..]);
    }
  }

  lemma {:induction false} BelowTotal(a: string, b: string)
    requires a != b
    ensures Below(a, b) || Below(b, a)
    decreases |a|
  {
    if |a| > 0 && |b| > 0 && a[0] == b[0] {
      assert a == [a[0]] + a[1..] && b == [b[0]] + b[1..];
      BelowTotal(a[1..], b[1..]);
    }
  }

  lemma BelowAsymmetric(a: string, b: string)
    requires Below(a, b)
    ensures !Below(b, a)
  {
    if Below(b, a) {
      BelowTransitive(a, b, a);
      BelowIrreflexive(a);
    }
  }

  predicate StrictlySorted(xs: seq<string>) {
    forall i, j :: 0 <= i < j < |xs| ==> Below(xs[i], xs[j])
  }

  lemma SortedIsDistinct(xs: seq<string>)
    requires StrictlySorted(xs)
    ensures Distinct(xs)
  {
    forall i, j | 0 <= i < j < |xs|
      ensures xs[i] != xs[j]
    {
      if xs[i] == xs[j] {
        BelowIrreflexive(xs[i]);
      }
    }
  }

  /** Adds `x` to a strictly sorted list unless it is already there. */
  function Insert(xs: seq<string>, x: string): (r: seq<string>)
    requires StrictlySorted(xs)
    ensures StrictlySorted(r)
    ensures forall y :: y in r <==> y in xs || y == x
    decreases |xs|
  {
    if |xs| == 0 then [x]
    else if x == xs[0] then xs
    else if Below(x, xs[0]) then
      assert StrictlySorted([x] + xs) by {
        forall j | 0 <= j < |xs|
          ensures Below(x, xs[j])
        {
          if j > 0 {
            BelowTransitive(x, xs[0], xs[j]);
          }
        }
      }
      [x] + xs
    else
      var rest := Insert(xs[1..], x);
      assert StrictlySorted([xs[0]] + rest) by {
        BelowTotal(x, xs[0]);
        forall y | y in rest
          ensures Below(xs[0], y)
        {
          if y != x {
            var j :| 0 <= j < |xs[1..]| && xs[1..][j] == y;
            assert xs[j + 1] == y;
          }
        }
      }
      [xs[0]] + rest
  }

  /** `[...new Set(ws)].sort()`: the distinct strings of `ws`, ascending. */
  function SortedDistinct(ws: seq<string>): (r: seq<string>)
    ensures StrictlySorted(r)
    ensures forall y :: y in r <==> y in ws
    decreases |ws|
  {
    if |ws| == 0 then []
    else
      var prefix := SortedDistinct(ws[..|ws| - 1]);
      assert forall y :: y in ws <==> y in ws[..|ws| - 1] || y == ws[|ws| - 1] by {
        assert ws == ws[..|ws| - 1] + [ws[|ws| - 1]];
      }
      Insert(prefix, ws[|ws| - 1])
  }

  /** A strictly sorted list is determined by its elements: whatever order
      the strings arrive in, the listing comes out the same. */
  lemma {:induction false} SortedListsWithSameElementsAreEqual(a: seq<string>, b: seq<string>)
    requires StrictlySorted(a) && StrictlySorted(b)
    requires forall y :: y in a <==> y in b
    ensures a == b
    decreases |a|
  {
    if |a| == 0 {
      SortedIsDistinct(b);
      DistinctCardinality(b);
      assert (set y | y in b) == {};
    } else {
      assert a[0] in b;
      assert |b| > 0;
      if a[0] != b[0] {
        assert b[0] in b;
        var i :| 0 <= i < |a| && a[i] == b[0];
        var j :| 0 <= j < |b| && b[j] == a[0];
        assert i > 0 && j > 0;
        assert Below(a[0], b[0]);
        assert Below(b[0], a[0]);
        BelowAsymmetric(a[0], b[0]);
      }
      forall y
        ensures y in a[1..] <==> y in b[1..]
      {
        TailElements(a, y);
        TailElements(b, y);
      }
      SortedListsWithSameElementsAreEqual(a[1..], b[1..]);
      assert a == [a[0]] + a[1..] && b == [b[0]] + b[1..];
    }
  }

  lemma TailElements(a: seq<string>, y: string)
    requires StrictlySorted(a) && |a| > 0
    ensures y in a[1..] <==> y in a && y != a[0]
  {
    if y in a[1..] {
      var j :| 0 <= j < |a[1..]| && a[1..][j] == y;
      assert Below(a[0], a[j + 1]);
      if y == a[0] {
        BelowIrreflexive(y);
      }
    }
    if y in a && y != a[0] {
      var j :| 0 <= j < |a| && a[j] == y;
      assert a[1..][j - 1] == y;
    }
  }
}

=== FILE: transactions.dfy ===
/** The audit-log readers and the dashboard counters. */
module Transactions {
  import opened Base
  import opened Schema
  import opened Access
  import Requests
  import Rentals
  import Inventory
  import Users

  /** The page size `take(args.limit || 100)` and `take(args.limit || 50)`
      use: a missing or zero limit falls back to the default. */
  function PageSize(limit: Option<nat>, default: nat): (n: nat)
    ensures limit.Some? && limit.value > 0 ==> n == limit.value
    ensures limit.None? || limit.value == 0 ==> n == default
  {
    match limit
    case None => default
    case Some(k) => if k == 0 then default else k
  }

  /** The positions of the newest `limit` entries of `log` that `keep`
      accepts, newest first: a descending index scan cut off by `take`. */
  function Newest(log: seq<LogEntry>, keep: LogEntry -> bool, limit: nat): (p: seq<nat>)
    ensures |p| <= limit
    ensures forall i :: 0 <= i < |p| ==> p[i] < |log| && keep(log[p[i]])
    ensures forall i, j :: 0 <= i < j < |p| ==> p[i] > p[j]
    ensures |p| < limit ==> forall k :: 0 <= k < |log| && keep(log[k]) ==> k in p
    ensures forall k :: 0 <= k < |log| && keep(log[k]) && k !in p ==> forall i :: 0 <= i < |p| ==> k < p[i]
    decreases |log|
  {
    if |log| == 0 || limit == 0 then []
    else
      var last := |log| - 1;
      var older := log[..last];
      if keep(log[last]) then
        var rest := Newest(older, keep, limit - 1);
        assert forall k :: 0 <= k < last ==> older[k] == log[k];
        [last] + rest
      else
        var rest := Newest(older, keep, limit);
        assert forall k :: 0 <= k < last ==> older[k] == log[k];
        rest
  }

  /** The entries of one action type, or every entry when no type is given. */
  function OfAction(actionType: Option<ActionType>): LogEntry -> bool {
    (e: LogEntry) => actionType.None? || e.actionType == actionType.value
  }

  /** The entries one profile wrote. */
  function ByUser(userId: Id): LogEntry -> bool {
    (e: LogEntry) => e.userId == userId
  }

  /** `getTransactionHistory`: log positions, newest first, optionally of one
      action type, at most `limit || 100` of them. */
  function GetTransactionHistory(s: Db, caller: Option<Id>, limit: Option<nat>, actionType: Option<ActionType>): (r: Result<seq<nat>>)
    ensures r.Ok? <==> Passes(s, caller, ClubOnly)
    ensures r.Err? ==> r.error == (if caller.None? then NotAuthenticated else ClubMemberAccessRequired)
    ensures r.Ok? ==> |r.value| <= PageSize(limit, 100)
    ensures r.Ok? ==> forall i :: 0 <= i < |r.value| ==>
      r.value[i] < |s.log| && (actionType.Some? ==> s.log[r.value[i]].actionType == actionType.value)
    ensures r.Ok? ==> forall i, j :: 0 <= i < j < |r.value| ==> r.value[i] > r.value[j]
    ensures r.Ok? && |r.value| < PageSize(limit, 100) ==>
      forall k :: 0 <= k < |s.log| && (actionType.None? || s.log[k].actionType == actionType.value) ==> k in r.value
    ensures r.Ok? ==>
      forall k :: 0 <= k < |s.log| && (actionType.None? || s.log[k].actionType == actionType.value) && k !in r.value ==>
        forall i :: 0 <= i < |r.value| ==> k < r.value[i]
  {
    var _ :- Authorize(s, caller, ClubOnly);
    Ok(Newest(s.log, OfAction(actionType), PageSize(limit, 100)))
  }

  /** With room to spare, the history is every matching entry; otherwise it
      is the newest ones: any matching entry left out is older than all
      listed. */
  lemma HistoryIsNewestEntries(s: Db, caller: Option<Id>, limit: Option<nat>, actionType: Option<ActionType>, k: nat)
    requires Passes(s, caller, ClubOnly)
    requires k < |s.log| && (actionType.None? || s.log[k].actionType == actionType.value)
    ensures var h := GetTransactionHistory(s, caller, limit, actionType).value;
            k !in h ==> |h| == PageSize(limit, 100) && forall i :: 0 <= i < |h| ==> k < h[i]
  {
  }

  /** `getMyTransactionHistory`: the caller's own entries, newest first, at
      most `limit || 50` of them. */
  function GetMyTransactionHistory(s: Db, caller: Option<Id>, limit: Option<nat>): (r: Result<seq<nat>>)
    ensures r.Ok? <==> Passes(s, caller, ApprovedOnly)
    ensures r.Err? ==> r.error == (if caller.None? then NotAuthenticated else AccessDenied)
    ensures r.Ok? ==> |r.value| <= PageSize(limit, 50)
    ensures r.Ok? ==> forall i :: 0 <= i < |r.value| ==> r.value[i] < |s.log| && s.log[r.value[i]].userId == caller.value
    ensures r.Ok? ==> forall i, j :: 0 <= i < j < |r.value| ==> r.value[i] > r.value[j]
    ensures r.Ok? && |r.value| < PageSize(limit, 50) ==>
      forall k :: 0 <= k < |s.log| && s.log[k].userId == caller.value ==> k in r.value
  {
    var me :- Authorize(s, caller, ApprovedOnly);
    Ok(Newest(s.log, ByUser(me), PageSize(limit, 50)))
  }

  /** With room to spare, the personal history is every entry the caller
      wrote; otherwise it is the newest ones: any left out is older than all
      listed. */
  lemma MyHistoryIsNewestOwnEntries(s: Db, caller: Option<Id>, limit: Option<nat>, k: nat)
    requires Passes(s, caller, ApprovedOnly)
    requires k < |s.log| && s.log[k].userId == caller.value
    ensures var h := GetMyTransactionHistory(s, caller, limit).value;
            k !in h ==> |h| == PageSize(limit, 50) && forall i :: 0 <= i < |h| ==> k < h[i]
  {
  }

  datatype DashboardStats = DashboardStats(
    totalEquipment: nat,
    activeRentals: nat,
    pendingRequests: nat,
    overdueRentals: nat,
    totalStudents: nat,
    pendingUsers: nat)

  function ActiveEquipmentIds(s: Db): set<Id> {
    set k | k in s.equipment && s.equipment[k].isActive
  }

  function OpenRentalIds(s: Db): set<Id> {
    set k | k in s.rentals && !s.rentals[k].isReturned
  }

  function ApprovedStudentIds(s: Db): set<Id> {
    set k | k in s.profiles && s.profiles[k].role == Student && s.profiles[k].isApproved
  }

  function UnapprovedProfileIds(s: Db): set<Id> {
    set k | k in s.profiles && !s.profiles[k].isApproved
  }

  /** `getDashboardStats`: six counters for the club dashboard. */
  function GetDashboardStats(s: Db, caller: Option<Id>, now: Time): (r: Result<DashboardStats>)
    ensures r.Ok? <==> Passes(s, caller, ClubOnly)
    ensures r.Err? ==> r.error == (if caller.None? then NotAuthenticated else ClubMemberAccessRequired)
    ensures r.Ok? ==> r.value.overdueRentals <= r.value.activeRentals
    ensures r.Ok? ==> r.value.overdueRentals == |Rentals.OverdueIds(s, now)|
    ensures r.Ok? ==> r.value.pendingRequests == |Requests.PendingIds(s)|
    ensures r.Ok? ==> && r.value.totalEquipment == |ActiveEquipmentIds(s)|
                      && r.value.activeRentals == |OpenRentalIds(s)|
                      && r.value.totalStudents == |ApprovedStudentIds(s)|
                      && r.value.pendingUsers == |UnapprovedProfileIds(s)|
  {
    var _ :- Authorize(s, caller, ClubOnly);
    OverdueRentalsAreOpen(s, now);
    Ok(DashboardStats(
      |ActiveEquipmentIds(s)|,
      |OpenRentalIds(s)|,
      |Requests.PendingIds(s)|,
      |Rentals.OverdueIds(s, now)|,
      |ApprovedStudentIds(s)|,
      |UnapprovedProfileIds(s)|))
  }

  lemma OverdueRentalsAreOpen(s: Db, now: Time)
    ensures Rentals.OverdueIds(s, now) <= OpenRentalIds(s)
    ensures |Rentals.OverdueIds(s, now)| <= |OpenRentalIds(s)|
  {
    SubsetCardinality(Rentals.OverdueIds(s, now), OpenRentalIds(s));
  }

  lemma {:induction false} SubsetCardinality(a: set<Id>, b: set<Id>)
    requires a <= b
    ensures |a| <= |b|
    decreases |b|
  {
    if a != {} {
      var x :| x in a;
      SubsetCardinality(a - {x}, b - {x});
    }
  }

  /** The dashboard counters agree with the listings behind the other pages:
      the equipment catalogue, the pending queue, the overdue list and the
      user-approval queue. */
  lemma DashboardAgreesWithListings(s: Db, caller: Option<Id>, now: Time)
    requires Passes(s, caller, ClubOnly)
    ensures var d := GetDashboardStats(s, caller, now).value;
            && d.totalEquipment == |Inventory.GetAllEquipment(s, caller).value|
            && d.pendingRequests == |Requests.GetPendingRequests(s, caller).value|
            && d.overdueRentals == |Rentals.GetOverdueRentals(s, caller, now).value|
    ensures Passes(s, caller, AdminOnly) ==>
            GetDashboardStats(s, caller, now).value.pendingUsers == |Users.GetPendingUsers(s, caller).value|
  {
    CatalogueCount(s, caller);
    Requests.PendingCountMatchesList(s, caller);
    if Passes(s, caller, AdminOnly) {
      ApprovalQueueCount(s, caller);
    }
  }

  lemma CatalogueCount(s: Db, caller: Option<Id>)
    requires Passes(s, caller, ApprovedOnly)
    ensures |Inventory.GetAllEquipment(s, caller).value| == |ActiveEquipmentIds(s)|
  {
    assert Inventory.GetAllEquipment(s, caller).value == Select(s.equipment, s.nextId, Inventory.IsActiveItem);
    SelectionCardinality(s.equipment, s.nextId, Inventory.IsActiveItem);
    assert Chosen(s.equipment, s.nextId, Inventory.IsActiveItem) == ActiveEquipmentIds(s);
  }

  lemma ApprovalQueueCount(s: Db, caller: Option<Id>)
    requires Passes(s, caller, AdminOnly)
    ensures |Users.GetPendingUsers(s, caller).value| == |UnapprovedProfileIds(s)|
  {
    assert Users.GetPendingUsers(s, caller).value == Select(s.profiles, s.nextId, Users.Unapproved);
    SelectionCardinality(s.profiles, s.nextId, Users.Unapproved);
    assert Chosen(s.profiles, s.nextId, Users.Unapproved) == UnapprovedProfileIds(s);
  }
}

=== FILE: users.dfy ===
/** Profiles: self-registration (the very first profile becomes an approved
    admin), approval by an admin, and the admin listings. */
module Users {
  import opened Base
  import opened Schema
  import opened Access

  /** The roles the registration form may ask for; admin is not among them. */
  datatype RequestedRole = AsStudent | AsMember

  function RoleOf(r: RequestedRole): Role {
    match r
    case AsStudent => Student
    case AsMember => Member
  }

  /** Account creation, done by the auth library rather than the backend: a
      new row in its `users` table under a fresh id. No profile and no audit
      entry is written; `createUserProfile` needs such a row. */
  function SignUp(s: Db, email: Option<string>): (r: Committed<Id>)
    ensures r.value == s.nextId && r.value !in s.users
    ensures r.state.users == s.users[r.value := AuthUser(email)]
    ensures r.state == s.(users := r.state.users, nextId := s.nextId + 1)
  {
    Committed(s.(users := s.users[s.nextId := AuthUser(email)], nextId := s.nextId + 1), s.nextId)
  }

  /** `createUserProfile`. `caller` is the signed-in account's id in the auth
      library's `users` table. */
  function CreateUserProfile(s: Db, caller: Option<Id>, role: RequestedRole, name: string,
                             studentId: Option<string>, phone: Option<string>,
                             department: Option<string>, year: Option<string>,
                             now: Time): (r: Result<Committed<Id>>)
    ensures r.Ok? <==> caller.Some? && caller.value in s.users
    ensures caller.None? ==> r == Err(NotAuthenticated)
    ensures caller.Some? && caller.value !in s.users ==> r == Err(UserNotFound)
    ensures r.Ok? ==>
      var s', id := r.value.state, r.value.value;
      && id == s.nextId && id !in s.profiles
      && s'.profiles.Keys == s.profiles.Keys + {id}
      && (forall k :: k in s.profiles ==> s'.profiles[k] == s.profiles[k])
      && s'.profiles[id].userId == caller.value && s'.profiles[id].name == name
      && s'.profiles[id].studentId == studentId && s'.profiles[id].phone == phone
      && s'.profiles[id].department == department && s'.profiles[id].year == year
      && s'.profiles[id].email == (match s.users[caller.value].email case Some(m) => m case None => "")
      && (|s.profiles| == 0 ==> s'.profiles[id].role == Admin && s'.profiles[id].isApproved)
      && (|s.profiles| > 0 ==> s'.profiles[id].role == RoleOf(role) && !s'.profiles[id].isApproved)
      && s'.log == s.log + [LogEntry(id, if |s.profiles| == 0 then UserApproved else RequestSubmitted, None, now)]
      && s' == s.(profiles := s'.profiles, log := s'.log, nextId := s'.nextId)
  {
    match caller
    case None => Err(NotAuthenticated)
    case Some(uid) =>
      if uid !in s.users then Err(UserNotFound)
      else
        var first := |s.profiles| == 0;
        var id := s.nextId;
        var profile := Profile(uid, if first then Admin else RoleOf(role), first, studentId, name,
                               s.users[uid].email.GetOr(""), phone, department, year);
        var s1 := s.(profiles := s.profiles[id := profile], nextId := id + 1);
        Ok(Committed(Record(s1, id, if first then UserApproved else RequestSubmitted, None, now), id))
  }

  /** Only the very first registration yields an admin; every later one waits
      for approval and, until then, fails every gate but the admin gate,
      which it fails too because its role is never admin. */
  lemma LaterRegistrationsPassNoGate(s: Db, caller: Option<Id>, role: RequestedRole, name: string,
                                     studentId: Option<string>, phone: Option<string>,
                                     department: Option<string>, year: Option<string>,
                                     now: Time, g: Gate)
    requires |s.profiles| > 0
    requires CreateUserProfile(s, caller, role, name, studentId, phone, department, year, now).Ok?
    ensures var c := CreateUserProfile(s, caller, role, name, studentId, phone, department, year, now).value;
            !Passes(c.state, Some(c.value), g)
  {
  }

  /** `updateUserApproval`: an admin sets a profile's approval flag. */
  function UpdateUserApproval(s: Db, caller: Option<Id>, profileId: Id, isApproved: bool, now: Time): (r: Result<Committed<Id>>)
    ensures r.Ok? <==> Passes(s, caller, AdminOnly) && profileId in s.profiles
    ensures !Passes(s, caller, AdminOnly) ==> r == Err(if caller.None? then NotAuthenticated else AdminAccessRequired)
    ensures Passes(s, caller, AdminOnly) && profileId !in s.profiles ==> r == Err(ProfileNotFound)
    ensures r.Ok? ==>
      var s' := r.value.state;
      var p := s.profiles[profileId];
      && r.value.value == profileId
      && s'.profiles.Keys == s.profiles.Keys
      && s'.profiles[profileId].isApproved == isApproved
      && s'.profiles[profileId].(isApproved := p.isApproved) == p
      && (forall k :: k in s.profiles && k != profileId ==> s'.profiles[k] == s.profiles[k])
      && s'.log == s.log + [LogEntry(caller.value, if isApproved then UserApproved else UserRejected, Some(profileId), now)]
      && s' == s.(profiles := s'.profiles, log := s'.log)
  {
    var actor :- Authorize(s, caller, AdminOnly);
    if profileId !in s.profiles then Err(ProfileNotFound)
    else
      var s1 := s.(profiles := s.profiles[profileId := s.profiles[profileId].(isApproved := isApproved)]);
      Ok(Committed(Record(s1, actor, if isApproved then UserApproved else UserRejected, Some(profileId), now), profileId))
  }

  predicate Unapproved(p: Profile) {
    !p.isApproved
  }

  predicate ApprovedProfile(p: Profile) {
    p.isApproved
  }

  /** `getPendingUsers`: the unapproved profiles. */
  function GetPendingUsers(s: Db, caller: Option<Id>): (r: Result<seq<Id>>)
    ensures r.Ok? <==> Passes(s, caller, AdminOnly)
    ensures r.Err? ==> r.error == (if caller.None? then NotAuthenticated else AdminAccessRequired)
    ensures r.Ok? ==> forall k :: k in r.value <==> k in s.profiles && !s.profiles[k].isApproved
    ensures r.Ok? ==> forall i, j :: 0 <= i < j < |r.value| ==> r.value[i] < r.value[j]
  {
    var _ :- Authorize(s, caller, AdminOnly);
    var ids := Select(s.profiles, s.nextId, Unapproved);
    assert forall k :: k in ids ==> k in s.profiles && Unapproved(s.profiles[k]);
    Ok(ids)
  }

  /** `getAllUsers`: the approved profiles. */
  function GetAllUsers(s: Db, caller: Option<Id>): (r: Result<seq<Id>>)
    ensures r.Ok? <==> Passes(s, caller, AdminOnly)
    ensures r.Err? ==> r.error == (if caller.None? then NotAuthenticated else AdminAccessRequired)
    ensures r.Ok? ==> forall k :: k in r.value <==> k in s.profiles && s.profiles[k].isApproved
    ensures r.Ok? ==> forall i, j :: 0 <= i < j < |r.value| ==> r.value[i] < r.value[j]
  {
    var _ :- Authorize(s, caller, AdminOnly);
    var ids := Select(s.profiles, s.nextId, ApprovedProfile);
    assert forall k :: k in ids ==> k in s.profiles && ApprovedProfile(s.profiles[k]);
    Ok(ids)
  }

  /** The two admin listings split the profiles between them. */
  lemma UserListingsPartitionProfiles(s: Db, caller: Option<Id>, k: Id)
    requires Passes(s, caller, AdminOnly)
    ensures k in s.profiles <==> k in GetPendingUsers(s, caller).value || k in GetAllUsers(s, caller).value
    ensures !(k in GetPendingUsers(s, caller).value && k in GetAllUsers(s, caller).value)
  {
  }
}
